=== FILE: README.md ===
# wheel2conda in Dafny

A model of the conversion core of `wheel2conda.py`. The converter takes an unpacked
wheel (the binary package format of PEP 427), checks that it is well formed, and writes
a conda package for one target. That package holds:

- the module tree, copied under site-packages;
- the `.data/data` files, copied at the package root;
- a launcher script for every console entry point (plus a launcher `.exe` on Windows);
- `info/index.json`, `info/has_prefix` and `info/files`.

The model describes the converter's data as immutable datatypes and its steps as pure
functions. The builder's two append-only lists, `files` and `has_prefix_files`, are a
`Manifest` value. That value is threaded through the steps together with the members
written to the tarball so far.

| file | module | what it models |
|---|---|---|
| `wrappers.dfy` | `Wrappers` | `Option` and `Result` |
| `seqs.dfy` | `Seqs` | facts about sequences that hold for any element type |
| `errors.dfy` | `Errors` | `BadWheelError` with its reasons, and the other exceptions the code lets escape (`ValueError`, `KeyError`, `IndexError`, `NotImplementedError`, `NotADirectoryError`, ...) |
| `text.dfy` | `Text` | the Python `str` operations used: `strip`, `split(':', 1)`, `split`, `count`, `'\n'.join`, `replace('.', '')`, `lower`, and iterating a file line by line |
| `tree.dfy` | `Tree` | the unpacked wheel as a tree of files and directories; the `os.walk` order in which `record_file_or_dir` visits it |
| `metadata.dfy` | `MetadataParser` | `_read_metadata`, and the `m[key][0]` lookups made on its result |
| `wheel.dfy` | `Wheel` | `check_wheel_contents` (the layout loop is a method with loop invariants) and `_find_dist_info` |
| `paths.dfy` | `Paths` | `Platform`, `PREFIX`, `site_packages_path`, `scripts_path` |
| `manifest.dfy` | `Manifest` | `record_file`, `record_file_or_dir`, `write_files_list`, `write_has_prefix_list` |
| `index.dfy` | `Index` | `write_index` |
| `archive.dfy` | `Archive` | the tarball's members together with the manifest, and the consistency they keep |
| `scripts.dfy` | `Scripts` | `script_template`, `create_scripts`' entry point loop, `_write_script_unix`, `_write_script_windows` |
| `builder.dfy` | `Builder` | `add_module`, `_add_data_dir`, `create_scripts`, and the step order of `build` |

The main results:

- **Metadata.** `_read_metadata` reads lines up to the first blank one. It fails exactly
  when a header line has no `:`. Otherwise the record maps each key to all of its values,
  in order.
- **Validation.** `check_wheel_contents` succeeds exactly when all of these hold:
  - the layout rules;
  - the WHEEL rules (format `1.0`, a pure-Python root);
  - METADATA gives a `Name` and a `Version`.

  Each rejection carries the reason the code raises. For the layout, that is the reason
  the first offending entry gives, in listing order.
- **Building.** `build` succeeds exactly when every step does. Its output has these
  properties:
  - The last three members are `info/index.json`, `info/has_prefix` and `info/files`,
    in that order.
  - The two listings are written from the final manifest.
  - Every recorded path names a member written before the `info/` files, and vice versa
    (as multisets).
  - `has_prefix_files` is an order-preserving subsequence of `files`. Each file it
    lists is a script in the scripts directory that starts with `#!` and `PREFIX`.
- **Checked wheels.** Once a wheel has passed `check_wheel_contents`, only three things
  can make its build fail, `configparser`'s own parse errors aside:
  - a `.data` layout that `_add_data_dir` does not support;
  - an `entry_points.txt` in the `.dist-info` directory without a `console_scripts`
    section (the `KeyError` of `cp['console_scripts']`);
  - a console entry point that does not parse.

## Model

| member | source | states |
|---|---|---|
| `Text.Strip` | wheel2conda.py:199-203 | `str.strip()`: the result is empty exactly when the line is all whitespace, and it neither starts nor ends with whitespace |
| `Text.StripExact` | wheel2conda.py:199-203 | stripping removes exactly the surrounding whitespace runs: whatever lies between them and does not itself start or end with whitespace is the result |
| `Text.StripIdempotent` | wheel2conda.py:201-203 | stripping the key and value of an already stripped line changes nothing |
| `Text.StripKeepsOut` | wheel2conda.py:201-202 | stripping never introduces a character, so a key cut before the first ':' still has no ':' |
| `Text.SplitFirst` | wheel2conda.py:201 | `split(':', 1)` gives two parts exactly when ':' occurs; the parts rejoined around ':' give the line back, and the first part holds no ':' |
| `Text.SplitFirstJoin` | wheel2conda.py:201 | splitting at the first separator undoes joining with it |
| `Text.Count` | wheel2conda.py:136 | `count(':')` is zero exactly when ':' does not occur |
| `Text.CountConcat` | wheel2conda.py:136 | counting distributes over concatenation |
| `Text.Split` | wheel2conda.py:175-181 | reading a listing back by splitting on '\n', the inverse of the `'\n'.join` both listings use: at least one piece, and no piece holds the separator |
| `Text.SplitJoin` | wheel2conda.py:181 | splitting `'\n'.join(xs)` on newlines gives back `xs` when no element holds a newline |
| `Text.Lines` | wheel2conda.py:198 | iterating a file: each line is non-empty and keeps its '\n', and only the last line may lack one |
| `Text.LinesConcat` | wheel2conda.py:198 | the lines read back to back reproduce the file |
| `Text.RemoveAll` | wheel2conda.py:150 | `replace('.', '')` leaves no dot and is shorter by exactly the number of dots |
| `Text.RemoveAllConcat` | wheel2conda.py:150 | removing from a concatenation removes from each part, so the other characters keep their order |
| `Text.RemoveAllChar` | wheel2conda.py:150 | on one character: dropped if it is the dot, kept otherwise |
| `Text.RemoveAllAbsent` | wheel2conda.py:150 | a string without a dot is returned unchanged |
| `Text.RemoveAllJoin` | wheel2conda.py:150 | removing the single dot of `a.b` gives `ab` |
| `Tree.WalkCount` | wheel2conda.py:56-69 | the walk of a tree yields exactly one path per regular file in it |
| `Tree.WalkUnder` | wheel2conda.py:56-69 | every path recorded for a tree lies at or below the `arcname` it was added under |
| `MetadataParser.ParseLine` | wheel2conda.py:201-203 | a line is accepted exactly when its stripped text has a ':'; the key has no ':', both key and value are stripped, and they are the stripped parts before and after the first ':' of the stripped line; a rejected line is reported as itself |
| `MetadataParser.ParseLineRoundTrip` | wheel2conda.py:201-203 | a line `key: value` written from a stripped key without ':' and a stripped value parses back to that key and value |
| `MetadataParser.Header` | wheel2conda.py:198-200 | the lines read are a prefix of the file, none of them blank after stripping, and the line that ends them (if any) is blank |
| `MetadataParser.ReadMetadata` | wheel2conda.py:195-206 | fails exactly when some header line has no ':', naming the first such header line; otherwise maps every key to all its values in order of appearance, none empty |
| `MetadataParser.ReadLinesGroups` | wheel2conda.py:198-204 | the line loop with its `defaultdict` accumulator computes the grouped record of the header's fields; on failure it names the first header line without ':' |
| `MetadataParser.ReadLinesReadsHeader` | wheel2conda.py:199-200 | the loop reads only the header: nothing after the first blank line, not even a malformed line, affects the result |
| `MetadataParser.AppendAllKeys` | wheel2conda.py:204 | appending fields one by one adds exactly the keys they name |
| `MetadataParser.AppendAllValues` | wheel2conda.py:204 | appending fields one by one gives a key its old values followed by the values the fields give it, in order |
| `MetadataParser.KeysOfNamed` | wheel2conda.py:204-206 | the record's keys are exactly the keys of the header's fields |
| `MetadataParser.GroupValuesNonEmpty` | wheel2conda.py:204-206 | every key of the record has at least one value |
| `MetadataParser.FirstValue` | wheel2conda.py:230-233 | `m[key][0]` succeeds exactly when the key is present with a value and returns its first value; an absent key is a `KeyError` |
| `Wheel.FindDistInfo` | wheel2conda.py:46-49 | `_find_dist_info` returns a `.dist-info` directory among the entries, and returns nothing exactly when no entry is one |
| `Wheel.CheckLayout` | wheel2conda.py:208-228 | the layout loop succeeds exactly when there is one `.dist-info` entry, at most one `.data` entry and both are directories, returning the `.dist-info` directory; each error implies the violation it names and is the reason the first offending entry gives, in listing order, or the missing `.dist-info` once every entry passed |
| `Wheel.FirstLayoutErrorUnique` | wheel2conda.py:212-228 | the reason the loop raises is determined by the entries: no two reasons both qualify as the first error |
| `Wheel.FirstLayoutErrorExample` | wheel2conda.py:212-222 | for a `.data` file listed before a `.dist-info` file, the reason is `.data` not a directory and not `.dist-info` not a directory |
| `Wheel.WellFormedHasDistInfo` | wheel2conda.py:46-49 | for a well-formed layout, `_find_dist_info` finds the `.dist-info` directory |
| `Wheel.OpenFile` | wheel2conda.py:197 | opening succeeds exactly when the directory has a regular file of that name, and then yields that file's text; otherwise the error names the path |
| `Wheel.CheckDistInfo` | wheel2conda.py:230-241 | succeeds exactly when WHEEL declares version `1.0` and a `Root-Is-Purelib` that lowercases to `true` and METADATA has `Name` and `Version`, returning METADATA; every failure has its error stated, in the order of the checks: an unreadable WHEEL, a missing `Wheel-Version` (KeyError), a wrong version, a missing `Root-Is-Purelib`, platlib, an unreadable METADATA, a missing field |
| `Wheel.CheckWheelContents` | wheel2conda.py:208-241 | a layout violation gives the layout error of the first offending entry; a well-formed layout gives the result of the dist-info checks on `_find_dist_info`'s directory; success returns metadata with `Name` and `Version` |
| `Paths.SitePackagesPath` | wheel2conda.py:71-75 | `Lib/site-packages/` on Windows, `lib/python<version>/site-packages/` elsewhere; always ends in '/' |
| `Paths.ScriptsPath` | wheel2conda.py:77-81 | `Scripts/` on Windows, `bin/` elsewhere; always ends in '/' |
| `Paths.SitePackagesNamesVersion` | wheel2conda.py:74-75 | off Windows, two Python versions never share a site-packages directory |
| `Paths.ScriptsOutsideSitePackages` | wheel2conda.py:71-81 | no path lies both in the scripts directory and in site-packages |
| `Manifest.RecordFile` | wheel2conda.py:51-54 | every call appends the path to `files`, and to `has_prefix_files` exactly when it is flagged |
| `Manifest.RecordFileKeepsSubsequence` | wheel2conda.py:51-54 | `has_prefix_files` stays an order-preserving subsequence of `files` |
| `Manifest.RecordAllAppends` | wheel2conda.py:51-54 | a run of calls appends all their paths to `files` in call order, and exactly the flagged ones to `has_prefix_files` |
| `Manifest.SelectMembers` | wheel2conda.py:53-54 | a path is among the flagged ones exactly when some flagged call recorded it |
| `Manifest.RecordTree` | wheel2conda.py:56-69 | `record_file_or_dir` appends the walked paths of the tree (the path itself for a file), flags none, and keeps the subsequence property |
| `Manifest.FilesListLines` | wheel2conda.py:180-184 | `info/files` is `files` joined by newlines, in recorded order, unsorted, with no trailing newline: its lines read back are `files` |
| `Manifest.HasPrefixListLines` | wheel2conda.py:170-178 | `info/has_prefix` has exactly one line `<PREFIX> text <path>` per flagged path, in order |
| `Manifest.EmptyListings` | wheel2conda.py:170-184 | with nothing recorded, both listings are empty |
| `Index.WriteIndex` | wheel2conda.py:149-164 | fails exactly when METADATA lacks a Name or Version value (Name looked up first); arch is `x86_64` exactly for bitness `64`, else `x86`; depends is `python <version>*`; license `UNKNOWN`; name and version are the first values; platform is the enum name; build is `py`, the version with its dots removed, and `_0` |
| `Index.SubdirNamesTarget` | wheel2conda.py:162 | the subdir splits at its first '-' into the platform name and the bitness |
| `Index.BuildString` | wheel2conda.py:150-155 | the build string starts with `py`, ends with `_0`, holds no dot, and is four characters longer than the version's non-dot characters |
| `Index.BuildStringOfVersion` | wheel2conda.py:150-154 | for a version `major.minor` the build string is `py<major><minor>_0` (`3.5` gives `py35_0`) |
| `Archive.InitialConsistent` | wheel2conda.py:42-43 | a fresh builder with an empty tarball is consistent |
| `Archive.AddTreeConsistent` | wheel2conda.py:98-100 | `tf.add` and `record_file_or_dir` of one tree write one member per recorded path and keep the builder consistent |
| `Archive.AddRecordedConsistent` | wheel2conda.py:117-118 | writing then recording a member keeps the builder consistent, if a flagged member is text whose `#!` line names the prefix |
| `Scripts.ParseEntryPoint` | wheel2conda.py:136-138 | an entry point value is accepted exactly when it has one ':'; module and function joined with ':' give the value back; otherwise the error carries the value |
| `Scripts.ParseEntryPointRoundTrip` | wheel2conda.py:136-138 | a module and function without ':' joined by ':' parse back to themselves |
| `Scripts.ScriptLines` | wheel2conda.py:23-28 | the script has exactly four newline-terminated lines: `#!<PREFIX>/bin/python`, `from <module> import <func>`, the `__main__` guard and `    <func>()` |
| `Scripts.ScriptMentionsPrefix` | wheel2conda.py:139-143 | every script starts with `#!` followed by `PREFIX`, so it contains the prefix |
| `Scripts.WriteScriptStep` | wheel2conda.py:113-126 | one entry point writes and records `<scripts>/<name>` flagged (Linux, OS X), or `<scripts>/<name>-script.py` flagged then the launcher `<scripts>/<name>.exe` unflagged (Windows) |
| `Scripts.WriteScriptsOk` | wheel2conda.py:135-137 | the entry point loop succeeds exactly when every value has one ':'; otherwise it reports the first value that does not |
| `Scripts.WriteScriptsWrites` | wheel2conda.py:135-147 | a successful loop appends the entry points' members in order, records all of them, and flags exactly the scripts |
| `Scripts.WriteScriptsConsistent` | wheel2conda.py:113-126 | writing the scripts keeps the builder consistent |
| `Scripts.FlaggedInScriptsDir` | wheel2conda.py:114-118 | every flagged script path lies in the scripts directory |
| `Scripts.ScriptCounts` | wheel2conda.py:113-126 | one member per entry point on Linux and OS X, two on Windows; one flagged path per entry point |
| `Builder.AddDataSubdirsOk` | wheel2conda.py:102-110 | `_add_data_dir` accepts a `.data` directory exactly when all its subdirectories are directories named `data`; other names and non-directories raise |
| `Builder.AddDataFilesRecords` | wheel2conda.py:105-107 | the files of `data` are recorded at the root under their own names (walked), none flagged |
| `Builder.AddModuleOk` | wheel2conda.py:91-110 | `add_module` fails exactly when some `.data` entry is not accepted, and only with a data-layout error |
| `Builder.AddModuleRecords` | wheel2conda.py:91-100 | a successful `add_module` records exactly the entries' files, entry by entry, and flags none |
| `Builder.AddModuleConsistent` | wheel2conda.py:91-107 | `add_module` keeps the builder consistent |
| `Builder.EntryFilesPlaced` | wheel2conda.py:94-107 | an ordinary entry's files land at or below `site_packages_path() + name`; a `.data` entry's files land at the root, at or below the name of something inside one of its subdirectories, which is named `data` when `_add_data_dir` accepts the entry |
| `Builder.ModuleFilesFrom` | wheel2conda.py:93-100 | every path `add_module` records comes from one top-level entry |
| `Builder.CreateScriptsEffect` | wheel2conda.py:128-147 | `create_scripts` succeeds exactly when the `.dist-info` directory exists and, if it has an `entry_points.txt`, a `console_scripts` section whose values all parse; it then writes and records the scripts |
| `Builder.CreateScriptsConsistent` | wheel2conda.py:128-147 | `create_scripts` keeps the builder consistent |
| `Builder.BuildOk` | wheel2conda.py:83-89 | `build` succeeds exactly when all of its steps do; a rejected `.data` layout is reported first, and a missing `.dist-info` before the index |
| `Builder.BuildEndsWithInfo` | wheel2conda.py:83-89 | the last three members are `info/index.json`, `info/has_prefix` and `info/files`, the two listings written from the final manifest |
| `Builder.BuildWrites` | wheel2conda.py:83-89 | `files` is the module's files followed by the scripts and launchers, and `has_prefix_files` exactly the scripts; the `info/` files are never recorded |
| `Builder.WriteInfoKeeps` | wheel2conda.py:166-184 | writing the three `info/` files after the recorded members keeps the builder's consistency: the members before them still match `files`, and the prefix facts still hold |
| `Builder.BuildConsistent` | wheel2conda.py:83-89 | in the finished package the members before `info/` and `files` agree as multisets; `has_prefix` is a subsequence of `files`, and each listed file is a text member that starts with `#!` and `PREFIX` |
| `Builder.BuildFlagsOnlyScripts` | wheel2conda.py:113-118 | every file flagged for prefix replacement lies in the scripts directory and outside site-packages |
| `Builder.CheckedWheelBuilds` | wheel2conda.py:208-241 | a wheel that passed `check_wheel_contents` builds exactly when its `.data` layout is supported and, if its `.dist-info` has an `entry_points.txt`, that file has a `console_scripts` section whose values all parse |

## Left out

- Archive I/O: `tarfile`, bz2 compression, `zipfile`, `tempfile` and `unpack_wheel`. The
  tarball is a sequence of regular-file members.
  - `tf.add` of a directory also writes directory members and visits children in sorted
    order. Neither is modelled: members are appended in the walk order that
    `record_file_or_dir` uses.
  - For that reason the agreement between the members and `files` is stated as a
    multiset equality (`Builder.BuildConsistent`), not as an equality of orders.
- `os.walk`, `os.path.relpath`, the `os.sep` replacement and `posixpath.normpath`. Paths
  are joined with a plain `/`. Every file system entry is a regular file or a directory
  (no symbolic links). Listing order is the order of a directory's children.
- Byte decoding and newline translation. File contents are text, taken after decoding
  and universal-newline translation. `.encode('utf-8')` of the generated files is not
  modelled.
- `Text.Lower`: ASCII letters only. The result's truth under `== "true"` is the same
  as with Python's full Unicode `lower()`, and its contract states only the length.
- `configparser`. The `console_scripts` section of `entry_points.txt` is an input: an
  optional, ordered sequence of `(name, value)` pairs, where absent means the section is
  missing.
  - The `optionxfrom` override is misspelled, so the parser still lowercases keys.
    Nothing in the model depends on key case.
  - The parser's own value stripping and `DEFAULT` section are not modelled.
  - Its own errors are not modelled: a missing section header, a malformed line, a
    duplicate option, or a bad '%' interpolation in a value.
- `win_cli_launchers.find_exe`. The launcher is an opaque member content that names the
  architecture it was found for.
- `json.dumps`. The index is the `IndexRecord` value, not its serialised bytes.
- `main`, the driver with its hard-wired target.
- Exception messages. Errors are datatype values that carry the reason or the offending
  input, not the message text.
- `Builder.CheckedWheelBuilds` also requires that `_find_dist_info` finds a directory.
  That requirement is implied by the layout (`Wheel.WellFormedHasDistInfo`); it is
  stated only so the contract can name the directory.
- Things wheel2conda.py does not do, so there is nothing to model:
  - rewriting the wheel's `RECORD` file;
  - filtering Python versions by compatibility;
  - a matrix of platforms and bitnesses (one build makes one package for one target);
  - content hashes.
- Facts of the code that the model keeps:
  - The `subdir` is `<enum member name>-<bitness>`, for example `windows-64`.
  - The `.dist-info` directory is copied into site-packages verbatim, `RECORD` included.
  - Console script names are not kept case-sensitive (see `configparser` above).

=== FILE: archive.dfy ===
/** What the builder has produced so far: the members written to the conda tarball and the
    manifest recorded alongside them. */
module Archive {
  import opened Text
  import opened Tree
  import opened Paths
  import opened Manifest
  import opened Index

  /** The bytes of a member: copied or generated text, a launcher executable found for an
      architecture, or the serialised index record. */
  datatype Content = Data(text: string) | Launcher(arch: string) | IndexJson(record: IndexRecord)

  /** One regular-file member of the tarball. */
  datatype Member = Member(path: string, content: Content)

  /** The open tarball together with the builder's `files` / `has_prefix_files`. */
  datatype State = State(archive: seq<Member>, manifest: Manifest)

  /** A new builder writing into an empty tarball. */
  const Initial: State := State([], Empty)

  function MemberPaths(ms: seq<Member>): (r: seq<string>)
    ensures |r| == |ms|
    ensures forall i :: 0 <= i < |ms| ==> r[i] == ms[i].path
  {
    seq(|ms|, i requires 0 <= i < |ms| => ms[i].path)
  }

  lemma MemberPathsConcat(a: seq<Member>, b: seq<Member>)
    ensures MemberPaths(a + b) == MemberPaths(a) + MemberPaths(b)
  {
  }

  /** The members `tf.add` writes for the files of a walked tree, each carrying its bytes. */
  function Copied(ps: seq<Placed>): (r: seq<Member>)
    ensures |r| == |ps|
    ensures forall i :: 0 <= i < |ps| ==> r[i] == Member(ps[i].path, Data(ps[i].content))
  {
    seq(|ps|, i requires 0 <= i < |ps| => Member(ps[i].path, Data(ps[i].content)))
  }

  /** `tf.add(src, arcname=arc)` followed by `record_file_or_dir(arc, src)`. */
  function AddTree(st: State, arc: string, n: Node): State {
    State(st.archive + Copied(Walk(arc, n)), RecordTree(st.manifest, arc, n))
  }

  /** `tf.addfile` or `tf.add` of one member followed by `record_file(path, hasPrefix)`. */
  function AddRecorded(st: State, m: Member, hasPrefix: bool): State {
    State(st.archive + [m], RecordFile(st.manifest, m.path, hasPrefix))
  }

  /** A member written to the tarball but not recorded: the `info/` files. */
  function AddUnrecorded(st: State, m: Member): State {
    State(st.archive + [m], st.manifest)
  }

  /** Text that opens with a `#!` line naming the install prefix, and so mentions it. */
  predicate PrefixedScript(c: Content) {
    c.Data? && StartsWith(c.text, "#!" + PREFIX) && Contains(c.text, PREFIX)
  }

  /** `ms` holds a member at `path` whose text starts with `#!` and the install prefix. */
  predicate HasPrefixMember(ms: seq<Member>, path: string) {
    exists i :: 0 <= i < |ms| && ms[i].path == path && PrefixedScript(ms[i].content)
  }

  /** What the builder keeps true between steps: the recorded files are the members written
      so far, the flagged files are among them in order, and each flagged file is a text
      member whose `#!` line names the prefix the installer will rewrite. */
  ghost predicate Consistent(st: State) {
    && MemberPaths(st.archive) == st.manifest.files
    && IsSubsequence(st.manifest.hasPrefixFiles, st.manifest.files)
    && forall p :: p in st.manifest.hasPrefixFiles ==> HasPrefixMember(st.archive, p)
  }

  lemma InitialConsistent()
    ensures Consistent(Initial)
  {
    EmptyIsSubsequence();
  }

  /** Appending members keeps every earlier prefixed member where it was. */
  lemma HasPrefixMemberAppend(ms: seq<Member>, more: seq<Member>, path: string)
    requires HasPrefixMember(ms, path)
    ensures HasPrefixMember(ms + more, path)
  {
    var i :| 0 <= i < |ms| && ms[i].path == path && PrefixedScript(ms[i].content);
    assert (ms + more)[i] == ms[i];
  }

  /** Copying a tree writes one member per recorded path, so the builder stays consistent. */
  lemma AddTreeConsistent(st: State, arc: string, n: Node)
    requires Consistent(st)
    ensures Consistent(AddTree(st, arc, n))
    ensures AddTree(st, arc, n).manifest.files == st.manifest.files + PathList(Walk(arc, n))
    ensures AddTree(st, arc, n).manifest.hasPrefixFiles == st.manifest.hasPrefixFiles
  {
    var ws := Walk(arc, n);
    var r := AddTree(st, arc, n);
    MemberPathsConcat(st.archive, Copied(ws));
    CopiedPaths(ws);
    forall p | p in r.manifest.hasPrefixFiles
      ensures HasPrefixMember(r.archive, p)
    {
      HasPrefixMemberAppend(st.archive, Copied(ws), p);
    }
  }

  /** The copied members sit at the walked paths. */
  lemma CopiedPaths(ps: seq<Placed>)
    ensures MemberPaths(Copied(ps)) == PathList(ps)
  {
  }

  /** Writing and recording one member keeps the builder consistent, provided a flagged
      member is text whose `#!` line names the prefix. */
  lemma AddRecordedConsistent(st: State, m: Member, hasPrefix: bool)
    requires Consistent(st)
    requires hasPrefix ==> PrefixedScript(m.content)
    ensures Consistent(AddRecorded(st, m, hasPrefix))
  {
    var r := AddRecorded(st, m, hasPrefix);
    MemberPathsConcat(st.archive, [m]);
    RecordFileKeepsSubsequence(st.manifest, m.path, hasPrefix);
    forall p | p in r.manifest.hasPrefixFiles
      ensures HasPrefixMember(r.archive, p)
    {
      if p in st.manifest.hasPrefixFiles {
        HasPrefixMemberAppend(st.archive, [m], p);
      } else {
        assert r.archive[|st.archive|] == m;
      }
    }
  }

  /** One recorded member: appended, its path recorded, and flagged when asked. */
  lemma AddRecordedStep(st: State, m: Member, hasPrefix: bool)
    ensures AddRecorded(st, m, hasPrefix).archive == st.archive + [m]
    ensures AddRecorded(st, m, hasPrefix).manifest.files == st.manifest.files + MemberPaths([m])
    ensures AddRecorded(st, m, hasPrefix).manifest.hasPrefixFiles ==
      st.manifest.hasPrefixFiles + (if hasPrefix then [m.path] else [])
  {
    assert MemberPaths([m]) == [m.path];
  }

  /** Two steps that each append members and record them compose into one. */
  lemma AppendSteps(st: State, mid: State, r: State, a: seq<Member>, b: seq<Member>, fa: seq<string>, fb: seq<string>)
    requires mid.archive == st.archive + a && r.archive == mid.archive + b
    requires mid.manifest.files == st.manifest.files + MemberPaths(a) && r.manifest.files == mid.manifest.files + MemberPaths(b)
    requires mid.manifest.hasPrefixFiles == st.manifest.hasPrefixFiles + fa && r.manifest.hasPrefixFiles == mid.manifest.hasPrefixFiles + fb
    ensures r.archive == st.archive + (a + b)
    ensures r.manifest.files == st.manifest.files + MemberPaths(a + b)
    ensures r.manifest.hasPrefixFiles == st.manifest.hasPrefixFiles + (fa + fb)
  {
    MemberPathsConcat(a, b);
  }
}

=== FILE: builder.dfy ===
/** `PackageBuilder.add_module`, `_add_data_dir`, `create_scripts` and `build`: the conda
    tarball and its manifest, produced step by step from the unpacked wheel. */
module Builder {
  import opened Wrappers
  import opened Errors
  import opened Text
  import opened Tree
  import opened Paths
  import opened Manifest
  import opened MetadataParser
  import opened Wheel
  import opened Index
  import opened Seqs
  import opened Archive
  import opened Scripts

  /** The files of a `.data/data` directory, each copied to the package root under its own
      name (`tf.add(f, arcname=f.name)` then `record_file_or_dir(f.name, f)`). */
  function AddDataFiles(fs: seq<Node>, st: State): State
    decreases |fs|
  {
    if |fs| == 0 then st else AddDataFiles(fs[1..], AddTree(st, fs[0].name, fs[0]))
  }

  /** The loop of `_add_data_dir` over the subdirectories of a `.data` directory: only
      `data` is supported, and it has to be a directory. */
  function AddDataSubdirs(ds: seq<Node>, st: State): Result<State, Error>
    decreases |ds|
  {
    if |ds| == 0 then Ok(st)
    else if ds[0].name != "data" then Err(UnsupportedDataSubdir(ds[0].name))
    else if ds[0].File? then Err(NotADirectory(ds[0].name))
    else AddDataSubdirs(ds[1..], AddDataFiles(ds[0].children, st))
  }

  /** `_add_data_dir(tf, src)`: listing a `.data` entry that is not a directory fails. */
  function AddDataDir(src: Node, st: State): Result<State, Error> {
    if src.File? then Err(NotADirectory(src.name)) else AddDataSubdirs(src.children, st)
  }

  /** The loop of `add_module`: a `.data` entry goes to `_add_data_dir`, any other entry is
      copied below site-packages and recorded there. */
  function AddModule(t: Target, entries: seq<Node>, st: State): Result<State, Error>
    decreases |entries|
  {
    if |entries| == 0 then Ok(st)
    else if IsDataDir(entries[0]) then
      match AddDataDir(entries[0], st)
      case Err(e) => Err(e)
      case Ok(st') => AddModule(t, entries[1..], st')
    else AddModule(t, entries[1..], AddTree(st, SitePackagesPath(t) + entries[0].name, entries[0]))
  }

  /** A `.data` entry `_add_data_dir` accepts: a directory holding only directories named `data`. */
  predicate DataDirAccepted(src: Node) {
    src.Dir? && forall i :: 0 <= i < |src.children| ==> src.children[i].name == "data" && src.children[i].Dir?
  }

  /** Every `.data` entry of the wheel is accepted. */
  predicate DataLayoutAccepted(entries: seq<Node>) {
    forall i :: 0 <= i < |entries| && IsDataDir(entries[i]) ==> DataDirAccepted(entries[i])
  }

  /** The errors a rejected `.data` layout is reported with. */
  predicate IsDataError(e: Error) {
    e.NotADirectory? || e.UnsupportedDataSubdir?
  }

  /** The paths recorded for the files of a `.data/data` directory. */
  function DataFilePaths(fs: seq<Node>): seq<string>
    decreases |fs|
  {
    if |fs| == 0 then [] else PathList(Walk(fs[0].name, fs[0])) + DataFilePaths(fs[1..])
  }

  /** The paths recorded for the `data` subdirectories of a `.data` directory. */
  function DataDirPaths(ds: seq<Node>): seq<string>
    decreases |ds|
  {
    if |ds| == 0 then []
    else (if ds[0].Dir? then DataFilePaths(ds[0].children) else []) + DataDirPaths(ds[1..])
  }

  /** The paths `add_module` records for one top-level entry. */
  function EntryFiles(t: Target, e: Node): seq<string> {
    if IsDataDir(e) then (if e.Dir? then DataDirPaths(e.children) else [])
    else PathList(Walk(SitePackagesPath(t) + e.name, e))
  }

  /** The paths `add_module` records, entry by entry. */
  function ModuleFiles(t: Target, entries: seq<Node>): seq<string>
    decreases |entries|
  {
    if |entries| == 0 then [] else EntryFiles(t, entries[0]) + ModuleFiles(t, entries[1..])
  }

  /** Two steps that each append to the recorded files without flagging compose. */
  lemma RecordSteps(st: State, mid: State, r: State, a: seq<string>, b: seq<string>)
    requires mid.manifest.files == st.manifest.files + a && r.manifest.files == mid.manifest.files + b
    requires mid.manifest.hasPrefixFiles == st.manifest.hasPrefixFiles && r.manifest.hasPrefixFiles == mid.manifest.hasPrefixFiles
    ensures r.manifest.files == st.manifest.files + (a + b)
    ensures r.manifest.hasPrefixFiles == st.manifest.hasPrefixFiles
  {
  }

  /** Copying the files of `data`: each is recorded at its walked path, none is flagged. */
  lemma {:induction false} AddDataFilesRecords(fs: seq<Node>, st: State)
    ensures AddDataFiles(fs, st).manifest.files == st.manifest.files + DataFilePaths(fs)
    ensures AddDataFiles(fs, st).manifest.hasPrefixFiles == st.manifest.hasPrefixFiles
    decreases |fs|
  {
    if |fs| == 0 {
      assert st.manifest.files + [] == st.manifest.files;
    } else {
      var st' := AddTree(st, fs[0].name, fs[0]);
      AddDataFilesRecords(fs[1..], st');
      RecordSteps(st, st', AddDataFiles(fs, st), PathList(Walk(fs[0].name, fs[0])), DataFilePaths(fs[1..]));
    }
  }

  lemma {:induction false} AddDataFilesConsistent(fs: seq<Node>, st: State)
    requires Consistent(st)
    ensures Consistent(AddDataFiles(fs, st))
    decreases |fs|
  {
    if |fs| > 0 {
      AddTreeConsistent(st, fs[0].name, fs[0]);
      AddDataFilesConsistent(fs[1..], AddTree(st, fs[0].name, fs[0]));
    }
  }

  /** `_add_data_dir` succeeds on the subdirectories exactly when all are directories named
      `data`, and then records their files and nothing else. */
  lemma {:induction false} AddDataSubdirsOk(ds: seq<Node>, st: State)
    ensures AddDataSubdirs(ds, st).Ok? <==>
      forall i :: 0 <= i < |ds| ==> ds[i].name == "data" && ds[i].Dir?
    ensures AddDataSubdirs(ds, st).Err? ==> IsDataError(AddDataSubdirs(ds, st).error)
    decreases |ds|
  {
    if |ds| > 0 && ds[0].name == "data" && ds[0].Dir? {
      AddDataSubdirsOk(ds[1..], AddDataFiles(ds[0].children, st));
      assert forall i :: 0 < i < |ds| ==> ds[i] == ds[1..][i - 1];
    }
  }

  lemma {:induction false} AddDataSubdirsRecords(ds: seq<Node>, st: State)
    requires AddDataSubdirs(ds, st).Ok?
    ensures AddDataSubdirs(ds, st).value.manifest.files == st.manifest.files + DataDirPaths(ds)
    ensures AddDataSubdirs(ds, st).value.manifest.hasPrefixFiles == st.manifest.hasPrefixFiles
    decreases |ds|
  {
    if |ds| == 0 {
      assert st.manifest.files + [] == st.manifest.files;
    } else {
      var st' := AddDataFiles(ds[0].children, st);
      AddDataFilesRecords(ds[0].children, st);
      AddDataSubdirsRecords(ds[1..], st');
      RecordSteps(st, st', AddDataSubdirs(ds, st).value, DataFilePaths(ds[0].children), DataDirPaths(ds[1..]));
    }
  }

  lemma {:induction false} AddDataSubdirsConsistent(ds: seq<Node>, st: State)
    requires Consistent(st)
    requires AddDataSubdirs(ds, st).Ok?
    ensures Consistent(AddDataSubdirs(ds, st).value)
    decreases |ds|
  {
    if |ds| > 0 {
      AddDataFilesConsistent(ds[0].children, st);
      AddDataSubdirsConsistent(ds[1..], AddDataFiles(ds[0].children, st));
    }
  }

  /** `add_module` fails exactly when some `.data` entry is not accepted. */
  lemma {:induction false} AddModuleOk(t: Target, entries: seq<Node>, st: State)
    ensures AddModule(t, entries, st).Ok? <==> DataLayoutAccepted(entries)
    ensures AddModule(t, entries, st).Err? ==> IsDataError(AddModule(t, entries, st).error)
    decreases |entries|
  {
    if |entries| > 0 {
      var e := entries[0];
      assert forall i :: 0 < i < |entries| ==> entries[i] == entries[1..][i - 1];
      if IsDataDir(e) {
        if e.Dir? {
          AddDataSubdirsOk(e.children, st);
        }
        match AddDataDir(e, st)
        case Err(_) =>
        case Ok(st') =>
          AddModuleOk(t, entries[1..], st');
      } else {
        AddModuleOk(t, entries[1..], AddTree(st, SitePackagesPath(t) + e.name, e));
      }
    }
  }

  /** A successful `add_module` records exactly the entries' files and flags none of them. */
  lemma {:induction false} AddModuleRecords(t: Target, entries: seq<Node>, st: State)
    requires AddModule(t, entries, st).Ok?
    ensures AddModule(t, entries, st).value.manifest.files == st.manifest.files + ModuleFiles(t, entries)
    ensures AddModule(t, entries, st).value.manifest.hasPrefixFiles == st.manifest.hasPrefixFiles
    decreases |entries|
  {
    if |entries| == 0 {
      assert st.manifest.files + [] == st.manifest.files;
    } else {
      var e := entries[0];
      var st' := if IsDataDir(e) then AddDataDir(e, st).value else AddTree(st, SitePackagesPath(t) + e.name, e);
      if IsDataDir(e) {
        AddDataSubdirsRecords(e.children, st);
      }
      assert AddModule(t, entries, st) == AddModule(t, entries[1..], st');
      AddModuleRecords(t, entries[1..], st');
      RecordSteps(st, st', AddModule(t, entries, st).value, EntryFiles(t, e), ModuleFiles(t, entries[1..]));
    }
  }

  /** `add_module` leaves the builder consistent: one member per recorded path. */
  lemma {:induction false} AddModuleConsistent(t: Target, entries: seq<Node>, st: State)
    requires Consistent(st)
    requires AddModule(t, entries, st).Ok?
    ensures Consistent(AddModule(t, entries, st).value)
    decreases |entries|
  {
    if |entries| > 0 {
      var e := entries[0];
      var st' := if IsDataDir(e) then AddDataDir(e, st).value else AddTree(st, SitePackagesPath(t) + e.name, e);
      if IsDataDir(e) {
        AddDataSubdirsConsistent(e.children, st);
      } else {
        AddTreeConsistent(st, SitePackagesPath(t) + e.name, e);
      }
      assert AddModule(t, entries, st) == AddModule(t, entries[1..], st');
      AddModuleConsistent(t, entries[1..], st');
    }
  }

  lemma WalkPathUnder(arc: string, n: Node, p: string)
    requires p in PathList(Walk(arc, n))
    ensures Under(p, arc)
  {
    WalkUnder(arc, n);
    var i :| 0 <= i < |PathList(Walk(arc, n))| && PathList(Walk(arc, n))[i] == p;
  }

  lemma {:induction false} DataFilePathsPlaced(fs: seq<Node>, p: string)
    requires p in DataFilePaths(fs)
    ensures exists f :: f in fs && Under(p, f.name)
    decreases |fs|
  {
    if p in PathList(Walk(fs[0].name, fs[0])) {
      WalkPathUnder(fs[0].name, fs[0], p);
    } else {
      DataFilePathsPlaced(fs[1..], p);
      var f :| f in fs[1..] && Under(p, f.name);
      assert f in fs;
    }
  }

  lemma {:induction false} DataDirPathsPlaced(ds: seq<Node>, p: string)
    requires p in DataDirPaths(ds)
    ensures exists d, f :: d in ds && d.Dir? && f in d.children && Under(p, f.name)
    decreases |ds|
  {
    if ds[0].Dir? && p in DataFilePaths(ds[0].children) {
      DataFilePathsPlaced(ds[0].children, p);
      var f :| f in ds[0].children && Under(p, f.name);
      assert ds[0] in ds;
    } else {
      DataDirPathsPlaced(ds[1..], p);
      var d, f :| d in ds[1..] && d.Dir? && f in d.children && Under(p, f.name);
      assert d in ds;
    }
  }

  /** Where `add_module` puts an entry's files: at or below `site-packages/<name>` for an
      ordinary entry; for a `.data` entry, at the package root, at or below the name of a
      file or directory inside one of its subdirectories, which is named `data` whenever
      `_add_data_dir` accepts the entry. */
  lemma EntryFilesPlaced(t: Target, e: Node, p: string)
    requires p in EntryFiles(t, e)
    ensures !IsDataDir(e) ==> Under(p, SitePackagesPath(t) + e.name)
    ensures IsDataDir(e) ==> e.Dir? && exists d, f :: d in e.children && d.Dir? && f in d.children && Under(p, f.name)
    ensures IsDataDir(e) && DataDirAccepted(e) ==>
      exists d, f :: d in e.children && d.name == "data" && f in d.children && Under(p, f.name)
  {
    if IsDataDir(e) {
      DataDirPathsPlaced(e.children, p);
    } else {
      WalkPathUnder(SitePackagesPath(t) + e.name, e, p);
    }
  }

  /** Every path `add_module` records comes from one of the top-level entries. */
  lemma {:induction false} ModuleFilesFrom(t: Target, entries: seq<Node>, p: string)
    requires p in ModuleFiles(t, entries)
    ensures exists i :: 0 <= i < |entries| && p in EntryFiles(t, entries[i])
    decreases |entries|
  {
    if p !in EntryFiles(t, entries[0]) {
      ModuleFilesFrom(t, entries[1..], p);
      var i :| 0 <= i < |entries[1..]| && p in EntryFiles(t, entries[1..][i]);
      assert entries[1..][i] == entries[i + 1];
    }
  }

  /** `entry_points.txt` is a regular file of the `.dist-info` directory (`ep_file.is_file()`). */
  predicate HasEntryPoints(d: Node) {
    d.Dir? && ChildNamed(d.children, "entry_points.txt").Some? && ChildNamed(d.children, "entry_points.txt").value.File?
  }

  /** `create_scripts`. The `console_scripts` section of `entry_points.txt`, as the config
      parser reads it, is an input: `None` when the section is missing. Without a
      `.dist-info` directory the lookup of `entry_points.txt` fails. */
  function CreateScripts(t: Target, entries: seq<Node>, consoleScripts: Option<seq<(string, string)>>, st: State)
    : Result<State, Error>
  {
    match FindDistInfo(entries)
    case None => Err(DistInfoNotFound)
    case Some(d) =>
      if !HasEntryPoints(d) then Ok(st)
      else
        match consoleScripts
        case None => Err(MissingKey("console_scripts"))
        case Some(eps) => WriteScripts(t, eps, st)
  }

  /** The conditions under which `create_scripts` succeeds. */
  predicate ScriptsAccepted(entries: seq<Node>, consoleScripts: Option<seq<(string, string)>>) {
    && FindDistInfo(entries).Some?
    && (HasEntryPoints(FindDistInfo(entries).value) ==> consoleScripts.Some? && EntryPointsParse(consoleScripts.value))
  }

  /** The entry points scripts are written for: none without an `entry_points.txt`. */
  function EntryPointsOf(entries: seq<Node>, consoleScripts: Option<seq<(string, string)>>): seq<(string, string)> {
    if FindDistInfo(entries).Some? && HasEntryPoints(FindDistInfo(entries).value) && consoleScripts.Some?
    then consoleScripts.value else []
  }

  /** `create_scripts` succeeds exactly when there is a `.dist-info` directory and, if it has
      an `entry_points.txt`, a `console_scripts` section whose values all parse; it then
      appends the scripts' members, records them and flags the scripts. */
  lemma CreateScriptsEffect(t: Target, entries: seq<Node>, cs: Option<seq<(string, string)>>, st: State)
    ensures CreateScripts(t, entries, cs, st).Ok? <==> ScriptsAccepted(entries, cs)
    ensures FindDistInfo(entries).None? ==> CreateScripts(t, entries, cs, st) == Err(DistInfoNotFound)
    ensures var r := CreateScripts(t, entries, cs, st); var eps := EntryPointsOf(entries, cs);
      r.Ok? ==>
        && r.value.archive == st.archive + ScriptMembers(t, eps)
        && r.value.manifest.files == st.manifest.files + MemberPaths(ScriptMembers(t, eps))
        && r.value.manifest.hasPrefixFiles == st.manifest.hasPrefixFiles + FlaggedScripts(t, eps)
  {
    var eps := EntryPointsOf(entries, cs);
    if FindDistInfo(entries).Some? {
      var d := FindDistInfo(entries).value;
      if HasEntryPoints(d) && cs.Some? {
        WriteScriptsOk(t, cs.value, st);
        if EntryPointsParse(cs.value) {
          WriteScriptsWrites(t, cs.value, st);
        }
      } else {
        assert st.archive + ScriptMembers(t, eps) == st.archive;
        assert st.manifest.files + MemberPaths(ScriptMembers(t, eps)) == st.manifest.files;
        assert st.manifest.hasPrefixFiles + FlaggedScripts(t, eps) == st.manifest.hasPrefixFiles;
      }
    }
  }

  lemma CreateScriptsConsistent(t: Target, entries: seq<Node>, cs: Option<seq<(string, string)>>, st: State)
    requires Consistent(st)
    requires CreateScripts(t, entries, cs, st).Ok?
    ensures Consistent(CreateScripts(t, entries, cs, st).value)
  {
    if FindDistInfo(entries).Some? && HasEntryPoints(FindDistInfo(entries).value) && cs.Some? {
      WriteScriptsOk(t, cs.value, st);
      WriteScriptsConsistent(t, cs.value, st);
    }
  }

  /** `write_index`, `write_has_prefix_list` and `write_files_list`: the three `info/`
      members, none of them recorded, each listing written from the manifest as it stands. */
  function WriteInfo(st: State, ix: IndexRecord): State {
    var st1 := AddUnrecorded(st, Member("info/index.json", IndexJson(ix)));
    var st2 := AddUnrecorded(st1, Member("info/has_prefix", Data(WriteHasPrefixList(st1.manifest))));
    AddUnrecorded(st2, Member("info/files", Data(WriteFilesList(st2.manifest))))
  }

  /** The three `info/` members `WriteInfo` appends, for a builder that recorded `m`. */
  function InfoMembers(m: Manifest, ix: IndexRecord): seq<Member> {
    [ Member("info/index.json", IndexJson(ix)),
      Member("info/has_prefix", Data(WriteHasPrefixList(m))),
      Member("info/files", Data(WriteFilesList(m))) ]
  }

  /** Writing the `info/` files appends them and leaves the manifest as it was. */
  lemma WriteInfoShape(st: State, ix: IndexRecord)
    ensures WriteInfo(st, ix) == State(st.archive + InfoMembers(st.manifest, ix), st.manifest)
  {
    assert st.archive + [InfoMembers(st.manifest, ix)[0]] + [InfoMembers(st.manifest, ix)[1]]
      + [InfoMembers(st.manifest, ix)[2]] == st.archive + InfoMembers(st.manifest, ix);
  }

  /** `PackageBuilder.build`: `add_module`, `create_scripts`, `write_index`,
      `write_has_prefix_list`, `write_files_list`, in that order, from a fresh builder; the
      first failing step's error is the result. */
  function Build(t: Target, metadata: Metadata, entries: seq<Node>, consoleScripts: Option<seq<(string, string)>>)
    : Result<State, Error>
  {
    match AddModule(t, entries, Initial)
    case Err(e) => Err(e)
    case Ok(st1) =>
      match CreateScripts(t, entries, consoleScripts, st1)
      case Err(e) => Err(e)
      case Ok(st2) =>
        match WriteIndex(t, metadata)
        case Err(e) => Err(e)
        case Ok(ix) => Ok(WriteInfo(st2, ix))
  }

  /** `build` succeeds exactly when every step does; a rejected `.data` layout is reported
      before anything about scripts, and a missing `.dist-info` before the index. */
  lemma BuildOk(t: Target, metadata: Metadata, entries: seq<Node>, cs: Option<seq<(string, string)>>)
    ensures Build(t, metadata, entries, cs).Ok? <==>
      && DataLayoutAccepted(entries)
      && ScriptsAccepted(entries, cs)
      && FirstValue(metadata, "Name").Ok? && FirstValue(metadata, "Version").Ok?
    ensures !DataLayoutAccepted(entries) ==>
      Build(t, metadata, entries, cs).Err? && IsDataError(Build(t, metadata, entries, cs).error)
    ensures DataLayoutAccepted(entries) && FindDistInfo(entries).None? ==>
      Build(t, metadata, entries, cs) == Err(DistInfoNotFound)
  {
    AddModuleOk(t, entries, Initial);
    if AddModule(t, entries, Initial).Ok? {
      CreateScriptsEffect(t, entries, cs, AddModule(t, entries, Initial).value);
    }
  }

  /** A successful `build` is each step succeeding in turn, then the `info/` files. */
  lemma BuildSteps(t: Target, metadata: Metadata, entries: seq<Node>, cs: Option<seq<(string, string)>>)
    requires Build(t, metadata, entries, cs).Ok?
    ensures AddModule(t, entries, Initial).Ok?
    ensures CreateScripts(t, entries, cs, AddModule(t, entries, Initial).value).Ok?
    ensures WriteIndex(t, metadata).Ok?
    ensures Build(t, metadata, entries, cs) ==
      Ok(WriteInfo(CreateScripts(t, entries, cs, AddModule(t, entries, Initial).value).value, WriteIndex(t, metadata).value))
  {
  }

  /** What `build` writes last: `info/index.json`, `info/has_prefix` and `info/files`, the
      two listings written from the final manifest. */
  lemma BuildEndsWithInfo(t: Target, metadata: Metadata, entries: seq<Node>, cs: Option<seq<(string, string)>>)
    requires Build(t, metadata, entries, cs).Ok?
    ensures var out := Build(t, metadata, entries, cs).value; var n := |out.archive|;
      && n >= 3
      && out.archive[n - 3] == Member("info/index.json", IndexJson(WriteIndex(t, metadata).value))
      && out.archive[n - 2] == Member("info/has_prefix", Data(WriteHasPrefixList(out.manifest)))
      && out.archive[n - 1] == Member("info/files", Data(WriteFilesList(out.manifest)))
  {
    BuildSteps(t, metadata, entries, cs);
    var st2 := CreateScripts(t, entries, cs, AddModule(t, entries, Initial).value).value;
    var ix := WriteIndex(t, metadata).value;
    WriteInfoShape(st2, ix);
    AppendParts(st2.archive, InfoMembers(st2.manifest, ix));
  }

  /** What `build` records: the module's files followed by the scripts (and launchers), with
      exactly the scripts flagged; the `info/` files are not recorded. */
  lemma BuildWrites(t: Target, metadata: Metadata, entries: seq<Node>, cs: Option<seq<(string, string)>>)
    requires Build(t, metadata, entries, cs).Ok?
    ensures var out := Build(t, metadata, entries, cs).value; var eps := EntryPointsOf(entries, cs);
      && out.manifest.files == ModuleFiles(t, entries) + MemberPaths(ScriptMembers(t, eps))
      && out.manifest.hasPrefixFiles == FlaggedScripts(t, eps)
  {
    BuildSteps(t, metadata, entries, cs);
    var st1 := AddModule(t, entries, Initial).value;
    AddModuleRecords(t, entries, Initial);
    CreateScriptsEffect(t, entries, cs, st1);
    var st2 := CreateScripts(t, entries, cs, st1).value;
    WriteInfoShape(st2, WriteIndex(t, metadata).value);
    assert Initial.manifest.files + ModuleFiles(t, entries) == ModuleFiles(t, entries);
    assert Initial.manifest.hasPrefixFiles + FlaggedScripts(t, EntryPointsOf(entries, cs)) == FlaggedScripts(t, EntryPointsOf(entries, cs));
  }

  /** The finished package is consistent: every recorded path is the path of exactly as many
      members before the `info/` files as it is recorded times, `has_prefix` lists a
      subsequence of `files`, and every file it lists is a text member that starts with `#!`
      and the prefix. */
  lemma BuildConsistent(t: Target, metadata: Metadata, entries: seq<Node>, cs: Option<seq<(string, string)>>)
    requires Build(t, metadata, entries, cs).Ok?
    ensures var out := Build(t, metadata, entries, cs).value; var n := |out.archive|;
      && n >= 3
      && multiset(MemberPaths(out.archive[..n - 3])) == multiset(out.manifest.files)
      && IsSubsequence(out.manifest.hasPrefixFiles, out.manifest.files)
      && forall p :: p in out.manifest.hasPrefixFiles ==> HasPrefixMember(out.archive, p)
  {
    BuildSteps(t, metadata, entries, cs);
    InitialConsistent();
    var st1 := AddModule(t, entries, Initial).value;
    AddModuleConsistent(t, entries, Initial);
    var st2 := CreateScripts(t, entries, cs, st1).value;
    CreateScriptsConsistent(t, entries, cs, st1);
    WriteInfoKeeps(st2, WriteIndex(t, metadata).value);
  }

  /** The `info/` members come after everything recorded and change nothing recorded. */
  lemma WriteInfoKeeps(st: State, ix: IndexRecord)
    requires Consistent(st)
    ensures var out := WriteInfo(st, ix); var n := |out.archive|;
      && n >= 3
      && multiset(MemberPaths(out.archive[..n - 3])) == multiset(out.manifest.files)
      && IsSubsequence(out.manifest.hasPrefixFiles, out.manifest.files)
      && forall p :: p in out.manifest.hasPrefixFiles ==> HasPrefixMember(out.archive, p)
  {
    var out := WriteInfo(st, ix);
    var more := InfoMembers(st.manifest, ix);
    WriteInfoShape(st, ix);
    AppendParts(st.archive, more);
    forall p | p in out.manifest.hasPrefixFiles
      ensures HasPrefixMember(out.archive, p)
    {
      HasPrefixMemberAppend(st.archive, more, p);
    }
  }

  /** Every file flagged for prefix replacement is a script in the scripts directory, which
      lies outside site-packages. */
  lemma BuildFlagsOnlyScripts(t: Target, metadata: Metadata, entries: seq<Node>, cs: Option<seq<(string, string)>>)
    requires Build(t, metadata, entries, cs).Ok?
    ensures var out := Build(t, metadata, entries, cs).value;
      forall p :: p in out.manifest.hasPrefixFiles ==> StartsWith(p, ScriptsPath(t)) && !StartsWith(p, SitePackagesPath(t))
  {
    BuildWrites(t, metadata, entries, cs);
    var eps := EntryPointsOf(entries, cs);
    FlaggedInScriptsDir(t, eps);
    forall p | p in FlaggedScripts(t, eps)
      ensures StartsWith(p, ScriptsPath(t)) && !StartsWith(p, SitePackagesPath(t))
    {
      ScriptsOutsideSitePackages(t, p);
    }
  }

  /** A wheel that passed `check_wheel_contents` always has its `.dist-info` directory found
      and its index written: building it can fail only on a `.data` layout `_add_data_dir`
      does not support or on the console entry points (a missing `console_scripts` section
      or a value that does not parse), `configparser`'s own errors aside. */
  lemma CheckedWheelBuilds(t: Target, entries: seq<Node>, cs: Option<seq<(string, string)>>)
    requires WellFormedLayout(entries)
    requires FindDistInfo(entries).Some?  // implied by the layout, see Wheel.WellFormedHasDistInfo
    requires CheckDistInfo(FindDistInfo(entries).value).Ok?
    ensures var d := FindDistInfo(entries).value; var metadata := CheckDistInfo(d).value;
      Build(t, metadata, entries, cs).Ok? <==>
        DataLayoutAccepted(entries) && (HasEntryPoints(d) ==> cs.Some? && EntryPointsParse(cs.value))
  {
    var metadata := CheckDistInfo(FindDistInfo(entries).value).value;
    BuildOk(t, metadata, entries, cs);
  }
}

=== FILE: errors.dfy ===
/** The exceptions wheel2conda.py raises, one constructor each. */
module Errors {

  /** The reasons check_wheel_contents gives when it raises BadWheelError. */
  datatype BadWheelReason =
    | DistInfoNotDirectory      // ".dist-info not a directory"
    | MultipleDistInfo          // "Multiple .dist-info directories"
    | DataNotDirectory          // ".data not a directory"
    | MultipleData              // "Multiple .data directories"
    | MissingDistInfo           // "Didn't find .dist-info directory"
    | UnsupportedWheelVersion   // "wheel2conda only knows about wheel format 1.0"
    | Platlib                   // "Can't currently autoconvert packages with platlib"
    | MissingField(field: string)  // "Missing required metadata field: ..."

  datatype Error =
    | BadWheel(reason: BadWheelReason)
      /** ValueError: a metadata header line with no ':' cannot be unpacked into key and value */
    | MalformedLine(line: string)
      /** KeyError: a metadata key, or the [console_scripts] section, is absent */
    | MissingKey(key: string)
      /** IndexError: `[0]` of an empty list of values */
    | NoValues(key: string)
      /** open() of a file that is missing or is a directory */
    | CannotOpen(name: string)
      /** iterdir() of something that is a regular file */
    | NotADirectory(name: string)
      /** TypeError: _find_dist_info found no .dist-info directory and returned None */
    | DistInfoNotFound
      /** ValueError("Bad entry point: ...") */
    | BadEntryPoint(value: string)
      /** NotImplementedError("... under data dir") */
    | UnsupportedDataSubdir(name: string)
}

=== FILE: index.dfy ===
/** `write_index`: the record serialised to `info/index.json`. */
module Index {
  import opened Wrappers
  import opened Errors
  import opened Text
  import opened Paths
  import opened MetadataParser

  /** The keys of the index dict (`json.dumps` with `sort_keys=True` writes them in this order). */
  datatype IndexRecord = IndexRecord(
    arch: string,
    build: string,
    buildNumber: nat,
    depends: seq<string>,
    license: string,
    name: string,
    platform: string,
    subdir: string,
    version: string)

  /** `PackageBuilder.build_no`, fixed at construction. */
  const BuildNumber: nat := 0

  /** `PackageBuilder.write_index`: fails only when METADATA lacks a Name or a Version value,
      Name being looked up first. */
  function WriteIndex(t: Target, metadata: Metadata): (r: Result<IndexRecord, Error>)
    ensures r.Ok? <==> FirstValue(metadata, "Name").Ok? && FirstValue(metadata, "Version").Ok?
    ensures FirstValue(metadata, "Name").Err? ==> r == Err(FirstValue(metadata, "Name").error)
    ensures r.Ok? ==> r.value.name == metadata["Name"][0] && r.value.version == metadata["Version"][0]
    ensures r.Ok? ==> (r.value.arch == "x86_64" <==> t.bitness == "64")
    ensures r.Ok? ==> (r.value.arch == "x86" <==> t.bitness != "64")
    ensures r.Ok? ==> r.value.depends == ["python " + t.pythonVersion + "*"]
    ensures r.Ok? ==> r.value.license == "UNKNOWN" && r.value.buildNumber == BuildNumber
    ensures r.Ok? ==> r.value.platform == t.platform.Name()
    ensures r.Ok? ==> r.value.build == "py" + RemoveAll(t.pythonVersion, '.') + "_0"
  {
    var name :- FirstValue(metadata, "Name");
    var version :- FirstValue(metadata, "Version");
    Ok(IndexRecord(
      arch := if t.bitness == "64" then "x86_64" else "x86",
      build := "py" + RemoveAll(t.pythonVersion, '.') + "_0",
      buildNumber := BuildNumber,
      depends := ["python " + t.pythonVersion + "*"],
      license := "UNKNOWN",
      name := name,
      platform := t.platform.Name(),
      subdir := t.platform.Name() + "-" + t.bitness,
      version := version))
  }

  /** The subdir names the platform and the bitness, and splitting it at its first '-'
      recovers both. */
  lemma SubdirNamesTarget(t: Target, metadata: Metadata)
    requires WriteIndex(t, metadata).Ok?
    ensures SplitFirst(WriteIndex(t, metadata).value.subdir, '-') == Some((t.platform.Name(), t.bitness))
  {
    SplitFirstJoin(t.platform.Name(), '-', t.bitness);
    assert t.platform.Name() + "-" + t.bitness == t.platform.Name() + ['-'] + t.bitness;
  }

  /** The build string is "py", the Python version with its dots dropped, "_" and the build
      number: it carries no dot, and it is as long as the version's non-dot characters plus four. */
  lemma BuildString(t: Target, metadata: Metadata)
    requires WriteIndex(t, metadata).Ok?
    ensures StartsWith(WriteIndex(t, metadata).value.build, "py")
    ensures EndsWith(WriteIndex(t, metadata).value.build, "_0")
    ensures '.' !in WriteIndex(t, metadata).value.build
    ensures |WriteIndex(t, metadata).value.build| == 4 + |t.pythonVersion| - Count(t.pythonVersion, '.')
  {
    var w := RemoveAll(t.pythonVersion, '.');
    var b := "py" + w + "_0";
    assert b[..2] == "py";
    assert b[|b| - 2..] == "_0";
    assert forall i :: 0 <= i < |b| ==> b[i] != '.' by {
      forall i | 0 <= i < |b|
        ensures b[i] != '.'
      {
        if 2 <= i < 2 + |w| {
          assert b[i] == w[i - 2];
        }
      }
    }
  }

  /** For a version `major.minor` the build string is `py<major><minor>_0`: `3.5` gives `py35_0`. */
  lemma BuildStringOfVersion(t: Target, metadata: Metadata, major: string, minor: string)
    requires WriteIndex(t, metadata).Ok?
    requires t.pythonVersion == major + "." + minor
    requires '.' !in major && '.' !in minor
    ensures WriteIndex(t, metadata).value.build == "py" + major + minor + "_0"
  {
    RemoveAllJoin(major, '.', minor);
    assert major + "." + minor == major + ['.'] + minor;
  }
}

=== FILE: manifest.dfy ===
/** The builder's bookkeeping: `record_file`, `record_file_or_dir` and the two listings
    written from it, `info/files` and `info/has_prefix`. */
module Manifest {
  import opened Text
  import opened Tree
  import opened Paths
  import opened Seqs

  /** `PackageBuilder.files` and `PackageBuilder.has_prefix_files`. */
  datatype Manifest = Manifest(files: seq<string>, hasPrefixFiles: seq<string>)

  /** A fresh builder records nothing. */
  const Empty: Manifest := Manifest([], [])

  /** One call `record_file(path, has_prefix)`. */
  datatype Record = Record(path: string, hasPrefix: bool)

  /** The elements of `xs` whose flag is set, in order. */
  function Select<T>(xs: seq<T>, flags: seq<bool>): (r: seq<T>)
    requires |flags| == |xs|
    ensures |r| <= |xs|
  {
    if |xs| == 0 then []
    else Select(xs[..|xs| - 1], flags[..|xs| - 1]) + (if flags[|xs| - 1] then [xs[|xs| - 1]] else [])
  }

  /** `a` is `b` with some elements left out and the rest kept in order. */
  ghost predicate IsSubsequence<T>(a: seq<T>, b: seq<T>) {
    exists flags: seq<bool> :: |flags| == |b| && Select(b, flags) == a
  }

  /** `record_file`: every call appends the path to `files`, and to `has_prefix_files`
      exactly when the path is flagged. */
  function RecordFile(m: Manifest, path: string, hasPrefix: bool): (r: Manifest)
    ensures r.files == m.files + [path]
    ensures r.hasPrefixFiles == if hasPrefix then m.hasPrefixFiles + [path] else m.hasPrefixFiles
  {
    Manifest(m.files + [path], if hasPrefix then m.hasPrefixFiles + [path] else m.hasPrefixFiles)
  }

  /** `has_prefix_files` stays an order-preserving subsequence of `files`. */
  lemma RecordFileKeepsSubsequence(m: Manifest, path: string, hasPrefix: bool)
    requires IsSubsequence(m.hasPrefixFiles, m.files)
    ensures IsSubsequence(RecordFile(m, path, hasPrefix).hasPrefixFiles, RecordFile(m, path, hasPrefix).files)
  {
    var flags: seq<bool> :| |flags| == |m.files| && Select(m.files, flags) == m.hasPrefixFiles;
    SelectAppend(m.files, flags, path, hasPrefix);
    assert |flags + [hasPrefix]| == |m.files + [path]|;
  }

  lemma EmptyIsSubsequence()
    ensures IsSubsequence(Empty.hasPrefixFiles, Empty.files)
  {
    assert Select<string>([], []) == [];
  }

  /** A sequence of `record_file` calls, in order. */
  function RecordAll(m: Manifest, rs: seq<Record>): Manifest
    decreases |rs|
  {
    if |rs| == 0 then m else RecordAll(RecordFile(m, rs[0].path, rs[0].hasPrefix), rs[1..])
  }

  function PathsOf(rs: seq<Record>): (r: seq<string>)
    ensures |r| == |rs|
  {
    if |rs| == 0 then [] else [rs[0].path] + PathsOf(rs[1..])
  }

  function FlagsOf(rs: seq<Record>): (r: seq<bool>)
    ensures |r| == |rs|
  {
    if |rs| == 0 then [] else [rs[0].hasPrefix] + FlagsOf(rs[1..])
  }

  lemma {:induction false} SelectAppend<T>(a: seq<T>, fa: seq<bool>, x: T, f: bool)
    requires |fa| == |a|
    ensures Select(a + [x], fa + [f]) == Select(a, fa) + (if f then [x] else [])
  {
    assert (a + [x])[..|a|] == a;
    assert (fa + [f])[..|a|] == fa;
  }

  /** After any sequence of `record_file` calls, `files` holds every recorded path in call
      order and `has_prefix_files` holds exactly the flagged ones, in the same order. */
  lemma {:induction false} RecordAllAppends(m: Manifest, rs: seq<Record>)
    ensures RecordAll(m, rs).files == m.files + PathsOf(rs)
    ensures RecordAll(m, rs).hasPrefixFiles == m.hasPrefixFiles + Select(PathsOf(rs), FlagsOf(rs))
    decreases |rs|
  {
    if |rs| > 0 {
      var m' := RecordFile(m, rs[0].path, rs[0].hasPrefix);
      RecordAllAppends(m', rs[1..]);
      var ps, fs := PathsOf(rs[1..]), FlagsOf(rs[1..]);
      var head := if rs[0].hasPrefix then [rs[0].path] else [];
      assert RecordAll(m, rs) == RecordAll(m', rs[1..]);
      assert PathsOf(rs) == [rs[0].path] + ps && FlagsOf(rs) == [rs[0].hasPrefix] + fs;
      SelectPrepend(rs[0].path, rs[0].hasPrefix, ps, fs);
      Assoc(m.files, [rs[0].path], ps);
      Assoc(m.hasPrefixFiles, head, Select(ps, fs));
    }
  }

  lemma {:induction false} SelectPrepend<T>(x: T, f: bool, a: seq<T>, fa: seq<bool>)
    requires |fa| == |a|
    ensures Select([x] + a, [f] + fa) == (if f then [x] else []) + Select(a, fa)
    decreases |a|
  {
    var head := if f then [x] else [];
    var xa, ff := [x] + a, [f] + fa;
    if |a| > 0 {
      var n := |a|;
      var a', fa' := a[..n - 1], fa[..n - 1];
      var last := if fa[n - 1] then [a[n - 1]] else [];
      assert xa[..n] == [x] + a' && ff[..n] == [f] + fa';
      SelectSnoc(xa, ff);
      SelectSnoc(a, fa);
      SelectPrepend(x, f, a', fa');
      Assoc(head, Select(a', fa'), last);
    } else {
      assert xa[..0] == [] && ff[..0] == [];
      SelectSnoc(xa, ff);
    }
  }

  lemma SelectSnoc<T>(xs: seq<T>, flags: seq<bool>)
    requires |flags| == |xs| > 0
    ensures Select(xs, flags) == Select(xs[..|xs| - 1], flags[..|xs| - 1]) + (if flags[|xs| - 1] then [xs[|xs| - 1]] else [])
  {
  }


  /** A path is in `has_prefix_files` exactly when some call recorded it with the flag set. */
  lemma {:induction false} SelectMembers<T>(xs: seq<T>, flags: seq<bool>, p: T)
    requires |flags| == |xs|
    ensures p in Select(xs, flags) <==> exists i :: 0 <= i < |xs| && flags[i] && xs[i] == p
  {
    if |xs| > 0 {
      var n := |xs| - 1;
      SelectMembers(xs[..n], flags[..n], p);
      if exists i :: 0 <= i < n && flags[..n][i] && xs[..n][i] == p {
        var i :| 0 <= i < n && flags[..n][i] && xs[..n][i] == p;
        assert flags[i] && xs[i] == p;
      }
      if exists i :: 0 <= i < |xs| && flags[i] && xs[i] == p {
        var i :| 0 <= i < |xs| && flags[i] && xs[i] == p;
        if i < n {
          assert flags[..n][i] && xs[..n][i] == p;
        }
      }
    }
  }

  /** Unflagged `record_file` calls for each path in turn. */
  function RecordPaths(m: Manifest, ps: seq<string>): (r: Manifest)
    ensures r.files == m.files + ps
    ensures r.hasPrefixFiles == m.hasPrefixFiles
    decreases |ps|
  {
    if |ps| == 0 then
      assert m.files + ps == m.files;
      m
    else
      var m' := RecordFile(m, ps[0], false);
      assert m.files + ps == m'.files + ps[1..];
      RecordPaths(m', ps[1..])
  }

  /** Appending unflagged paths keeps `has_prefix_files` a subsequence of `files`. */
  lemma SubsequenceExtend<T>(h: seq<T>, f: seq<T>, ps: seq<T>)
    ensures IsSubsequence(h, f) ==> IsSubsequence(h, f + ps)
  {
    if IsSubsequence(h, f) {
      var flags: seq<bool> :| |flags| == |f| && Select(f, flags) == h;
      SelectPad(f, flags, ps);
      assert |flags + Falses(|ps|)| == |f + ps|;
    }
  }

  function Falses(n: nat): (r: seq<bool>)
    ensures |r| == n
  {
    if n == 0 then [] else Falses(n - 1) + [false]
  }

  /** Elements appended unflagged are not selected. */
  lemma {:induction false} SelectPad<T>(xs: seq<T>, flags: seq<bool>, ps: seq<T>)
    requires |flags| == |xs|
    ensures Select(xs + ps, flags + Falses(|ps|)) == Select(xs, flags)
    decreases |ps|
  {
    if |ps| > 0 {
      var n := |ps| - 1;
      SelectPad(xs, flags, ps[..n]);
      SelectAppend(xs + ps[..n], flags + Falses(n), ps[n], false);
      Assoc(xs, ps[..n], [ps[n]]);
      assert ps[..n] + [ps[n]] == ps;
      Assoc(flags, Falses(n), [false]);
    } else {
      assert xs + ps == xs && flags + Falses(0) == flags;
    }
  }

  /** `record_file_or_dir(arc, src)`: a file is recorded as `arc`; every regular file of a
      directory is recorded at its path below `arc`, in os.walk order; none is flagged. */
  function RecordTree(m: Manifest, arc: string, n: Node): (r: Manifest)
    ensures r.files == m.files + PathList(Walk(arc, n))
    ensures r.hasPrefixFiles == m.hasPrefixFiles
    ensures IsSubsequence(m.hasPrefixFiles, m.files) ==> IsSubsequence(r.hasPrefixFiles, r.files)
  {
    SubsequenceExtend(m.hasPrefixFiles, m.files, PathList(Walk(arc, n)));
    RecordPaths(m, PathList(Walk(arc, n)))
  }

  /** One line of `info/has_prefix`. */
  function PrefixLine(path: string): string {
    PREFIX + " text " + path
  }

  function PrefixLines(ps: seq<string>): (r: seq<string>)
    ensures |r| == |ps|
    ensures forall i :: 0 <= i < |ps| ==> r[i] == PrefixLine(ps[i])
  {
    seq(|ps|, i requires 0 <= i < |ps| => PrefixLine(ps[i]))
  }

  /** `write_files_list`: the text of `info/files`. */
  function WriteFilesList(m: Manifest): string {
    Join(m.files, "\n")
  }

  /** `write_has_prefix_list`: the text of `info/has_prefix`. */
  function WriteHasPrefixList(m: Manifest): string {
    Join(PrefixLines(m.hasPrefixFiles), "\n")
  }

  /** `info/files` lists the recorded paths one per line, in recording order, unsorted,
      with no trailing newline: reading its lines back gives `files` exactly. */
  lemma FilesListLines(m: Manifest)
    requires |m.files| > 0
    requires forall i :: 0 <= i < |m.files| ==> '\n' !in m.files[i]
    ensures Split(WriteFilesList(m), '\n') == m.files
  {
    SplitJoin(m.files, '\n');
  }

  /** `info/has_prefix` has one line `<PREFIX> text <path>` per flagged path, in order. */
  lemma HasPrefixListLines(m: Manifest)
    requires |m.hasPrefixFiles| > 0
    requires forall i :: 0 <= i < |m.hasPrefixFiles| ==> '\n' !in m.hasPrefixFiles[i]
    ensures |Split(WriteHasPrefixList(m), '\n')| == |m.hasPrefixFiles|
    ensures forall i :: 0 <= i < |m.hasPrefixFiles| ==>
      Split(WriteHasPrefixList(m), '\n')[i] == PREFIX + " text " + m.hasPrefixFiles[i]
  {
    var lines := PrefixLines(m.hasPrefixFiles);
    forall i | 0 <= i < |lines|
      ensures '\n' !in lines[i]
    {
      var p := m.hasPrefixFiles[i];
      assert lines[i] == (PREFIX + " text ") + p;
      assert '\n' !in PREFIX + " text ";
    }
    SplitJoin(lines, '\n');
  }

  /** Both listings are empty files when nothing was recorded. */
  lemma EmptyListings()
    ensures WriteFilesList(Empty) == "" && WriteHasPrefixList(Empty) == ""
  {
  }
}

=== FILE: metadata.dfy ===
/** `_read_metadata`: the `key: value` header of a WHEEL or METADATA file. */
module MetadataParser {
  import opened Wrappers
  import opened Errors
  import opened Text

  /** A parsed record: each key maps to its values in order of appearance. */
  type Metadata = map<string, seq<string>>

  /** The key and value of one header line. */
  type Field = (string, string)

  /** One header line: the stripped line is split at its first ':' and both halves are stripped. */
  function ParseLine(line: string): (r: Result<Field, Error>)
    ensures r.Ok? <==> ':' in Strip(line)
    ensures r.Err? ==> r.error == MalformedLine(line)
    ensures r.Ok? ==> ':' !in r.value.0
    ensures r.Ok? ==> IsStripped(r.value.0) && IsStripped(r.value.1)
    ensures r.Ok? ==> exists a, b :: Strip(line) == a + ":" + b && ':' !in a && r.value == (Strip(a), Strip(b))
  {
    var parts := SplitFirst(Strip(line), ':');
    if parts.None? then Err(MalformedLine(line))
    else
      StripKeepsOut(parts.value.0, ':');
      assert parts.value.0 + [':'] + parts.value.1 == parts.value.0 + ":" + parts.value.1;
      Ok((Strip(parts.value.0), Strip(parts.value.1)))
  }

  /** A header line written as `key: value` parses back to that key and value;
      the value may itself contain ':'. */
  lemma ParseLineRoundTrip(k: string, v: string)
    requires ':' !in k && IsStripped(k) && IsStripped(v)
    ensures ParseLine(k + ": " + v + "\n") == Ok((k, v))
  {
    var after := if v == [] then "" else " " + v;
    FieldLineStrips(k, v, after);
    SplitFirstJoin(k, ':', after);
    StrippedStrips(k);
    StripLeadingSpace(v, after);
    ParseLineOf(k + ": " + v + "\n", k + [':'] + after, k, after, v);
  }

  lemma FieldLineStrips(k: string, v: string, after: string)
    requires IsStripped(k) && IsStripped(v)
    requires after == if v == [] then "" else " " + v
    ensures Strip(k + ": " + v + "\n") == k + [':'] + after
  {
    var body := k + [':'] + after;
    var tail := if v == [] then " \n" else "\n";
    FieldLineParts(k, v, after);
    FieldBodyStripped(k, v, after);
    assert AllSpace(tail);
    StripExact([], body, tail);
  }

  lemma FieldLineParts(k: string, v: string, after: string)
    requires after == if v == [] then "" else " " + v
    ensures k + ": " + v + "\n" == [] + (k + [':'] + after) + (if v == [] then " \n" else "\n")
  {
  }

  lemma FieldBodyStripped(k: string, v: string, after: string)
    requires IsStripped(k) && IsStripped(v)
    requires after == if v == [] then "" else " " + v
    ensures IsStripped(k + [':'] + after)
  {
    var body := k + [':'] + after;
    assert body[0] == (if k == [] then ':' else k[0]);
    assert body[|body| - 1] == (if v == [] then ':' else v[|v| - 1]);
  }

  lemma StrippedStrips(k: string)
    requires IsStripped(k)
    ensures Strip(k) == k
  {
    StripExact([], k, []);
    assert [] + k + [] == k;
  }

  lemma StripLeadingSpace(v: string, after: string)
    requires IsStripped(v)
    requires after == if v == [] then "" else " " + v
    ensures Strip(after) == v
  {
    StripExact(" ", v, []);
    assert " " + v + [] == " " + v;
  }

  lemma ParseLineOf(line: string, body: string, k: string, after: string, v: string)
    requires Strip(line) == body && SplitFirst(body, ':') == Some((k, after))
    requires Strip(k) == k && Strip(after) == v
    ensures ParseLine(line) == Ok((k, v))
  {
  }

  /** The values stored under `key` so far; `defaultdict(list)` yields [] for a new key. */
  function Get(m: Metadata, key: string): seq<string> {
    if key in m then m[key] else []
  }

  /** `res[k].append(v)`. */
  function Append(m: Metadata, f: Field): Metadata {
    m[f.0 := Get(m, f.0) + [f.1]]
  }

  /** The loop of `_read_metadata`, continuing from the dict built so far: it ends at the
      end of the file or at the first line that is blank after stripping. */
  function ReadLines(lines: seq<string>, acc: Metadata): Result<Metadata, Error>
  {
    if |lines| == 0 || Strip(lines[0]) == "" then Ok(acc)
    else
      match ParseLine(lines[0])
      case Err(e) => Err(e)
      case Ok(f) => ReadLines(lines[1..], Append(acc, f))
  }

  /** The header: the lines before the first one that is blank after stripping. */
  function Header(lines: seq<string>): (h: seq<string>)
    ensures h <= lines
    ensures forall i :: 0 <= i < |h| ==> Strip(lines[i]) != ""
    ensures |h| < |lines| ==> Strip(lines[|h|]) == ""
  {
    if |lines| == 0 then []
    else if Strip(lines[0]) == "" then []
    else
      var t := Header(lines[1..]);
      forall i | 1 <= i <= |t|
        ensures Strip(lines[i]) != ""
      {
        assert lines[i] == lines[1..][i - 1];
      }
      [lines[0]] + t
  }

  predicate AllParse(h: seq<string>) {
    forall i :: 0 <= i < |h| ==> ':' in Strip(h[i])
  }

  /** `line` is the first line of `h` that has no ':' once stripped. */
  predicate FirstMalformed(h: seq<string>, line: string) {
    exists i :: 0 <= i < |h| && h[i] == line && ':' !in Strip(h[i]) && AllParse(h[..i])
  }

  function FieldsOf(h: seq<string>): (fs: seq<Field>)
    requires AllParse(h)
    ensures |fs| == |h|
  {
    if |h| == 0 then []
    else
      assert AllParse(h[1..]) by {
        forall i | 0 <= i < |h| - 1
          ensures ':' in Strip(h[1..][i])
        {
          assert h[1..][i] == h[i + 1];
        }
      }
      [ParseLine(h[0]).value] + FieldsOf(h[1..])
  }

  /** The values given for `key`, in the order the lines give them. */
  function ValuesOf(fs: seq<Field>, key: string): seq<string> {
    if |fs| == 0 then []
    else (if fs[0].0 == key then [fs[0].1] else []) + ValuesOf(fs[1..], key)
  }

  function KeysOf(fs: seq<Field>): set<string> {
    if |fs| == 0 then {} else {fs[0].0} + KeysOf(fs[1..])
  }

  /** The record the header describes: every key that occurs, with all its values in order. */
  function Group(fs: seq<Field>): Metadata {
    map k | k in KeysOf(fs) :: ValuesOf(fs, k)
  }

  /** `res[k].append(v)` for each field in turn. */
  function AppendAll(acc: Metadata, fs: seq<Field>): Metadata
    decreases |fs|
  {
    if |fs| == 0 then acc else AppendAll(Append(acc, fs[0]), fs[1..])
  }

  /** `_read_metadata` on the text of a file. */
  function ReadMetadata(text: string): (r: Result<Metadata, Error>)
    ensures r.Ok? <==> AllParse(Header(Lines(text)))
    ensures r.Ok? ==> r.value == Group(FieldsOf(Header(Lines(text))))
    ensures r.Ok? ==> forall k :: k in r.value ==> |r.value[k]| > 0
    ensures r.Err? ==> r.error.MalformedLine? && FirstMalformed(Header(Lines(text)), r.error.line)
  {
    var lines := Lines(text);
    ReadLinesGroups(lines, map[]);
    if AllParse(Header(lines)) then
      var fs := FieldsOf(Header(lines));
      AppendAllGroups(map[], fs);
      GroupValuesNonEmpty(fs);
      ReadLines(lines, map[])
    else
      ReadLines(lines, map[])
  }

  /** The loop parses exactly the header, and fails on its first line without ':'. */
  lemma {:induction false} ReadLinesGroups(lines: seq<string>, acc: Metadata)
    ensures ReadLines(lines, acc).Ok? <==> AllParse(Header(lines))
    ensures AllParse(Header(lines)) ==> ReadLines(lines, acc).value == AppendAll(acc, FieldsOf(Header(lines)))
    ensures ReadLines(lines, acc).Err? ==>
      ReadLines(lines, acc).error.MalformedLine? && FirstMalformed(Header(lines), ReadLines(lines, acc).error.line)
  {
    if |lines| > 0 && Strip(lines[0]) != "" {
      var r := ParseLine(lines[0]);
      HeaderStep(lines);
      if r.Err? {
        ReadLinesStep(lines, acc);
        assert Header(lines)[0] == lines[0] && Header(lines)[..0] == [];
      } else {
        ReadLinesStep(lines, acc);
        var next := Append(acc, r.value);
        ReadLinesGroups(lines[1..], next);
        FieldsStep(lines[0], Header(lines[1..]));
        if ReadLines(lines[1..], next).Err? {
          FirstMalformedCons(lines[0], Header(lines[1..]), ReadLines(lines[1..], next).error.line);
        }
      }
    }
  }

  /** A line that parses, put in front, leaves the first malformed line where it was. */
  lemma FirstMalformedCons(line: string, h: seq<string>, bad: string)
    requires ':' in Strip(line) && FirstMalformed(h, bad)
    ensures FirstMalformed([line] + h, bad)
  {
    var i :| 0 <= i < |h| && h[i] == bad && ':' !in Strip(h[i]) && AllParse(h[..i]);
    var h' := [line] + h;
    assert h'[i + 1] == h[i];
    assert h'[..i + 1] == [line] + h[..i];
    AllParseStep(line, h[..i]);
  }

  lemma ReadLinesStep(lines: seq<string>, acc: Metadata)
    requires |lines| > 0 && Strip(lines[0]) != ""
    ensures ParseLine(lines[0]).Err? ==> ReadLines(lines, acc) == Err(MalformedLine(lines[0]))
    ensures ParseLine(lines[0]).Ok? ==>
      ReadLines(lines, acc) == ReadLines(lines[1..], Append(acc, ParseLine(lines[0]).value))
  {
  }

  lemma HeaderStep(lines: seq<string>)
    requires |lines| > 0 && Strip(lines[0]) != ""
    ensures Header(lines) == [lines[0]] + Header(lines[1..])
  {
  }

  lemma FieldsStep(line: string, h: seq<string>)
    ensures AllParse([line] + h) <==> ':' in Strip(line) && AllParse(h)
    ensures AllParse([line] + h) ==> FieldsOf([line] + h) == [ParseLine(line).value] + FieldsOf(h)
  {
    AllParseStep(line, h);
    assert ([line] + h)[1..] == h;
  }

  lemma AllParseStep(line: string, h: seq<string>)
    ensures AllParse([line] + h) <==> ':' in Strip(line) && AllParse(h)
  {
    var h' := [line] + h;
    if AllParse(h') {
      assert h'[0] == line;
      forall i | 0 <= i < |h|
        ensures ':' in Strip(h[i])
      {
        assert h'[i + 1] == h[i];
      }
    }
    if ':' in Strip(line) && AllParse(h) {
      forall i | 0 <= i < |h'|
        ensures ':' in Strip(h'[i])
      {
        if i > 0 {
          assert h'[i] == h[i - 1];
        }
      }
    }
  }

  /** Folding `append` over the fields adds exactly the keys they name. */
  lemma {:induction false} AppendAllKeys(acc: Metadata, fs: seq<Field>)
    ensures AppendAll(acc, fs).Keys == acc.Keys + KeysOf(fs)
    decreases |fs|
  {
    if |fs| > 0 {
      AppendAllKeys(Append(acc, fs[0]), fs[1..]);
    }
  }

  /** Folding `append` over the fields leaves a key with its earlier values followed by
      the values the fields give it, in order. */
  lemma {:induction false} AppendAllValues(acc: Metadata, fs: seq<Field>, k: string)
    ensures Get(AppendAll(acc, fs), k) == Get(acc, k) + ValuesOf(fs, k)
    decreases |fs|
  {
    if |fs| > 0 {
      var acc' := Append(acc, fs[0]);
      AppendAllValues(acc', fs[1..], k);
      AppendGet(acc, fs[0], k);
      assert AppendAll(acc, fs) == AppendAll(acc', fs[1..]);
      assert ValuesOf(fs, k) == (if fs[0].0 == k then [fs[0].1] else []) + ValuesOf(fs[1..], k);
    }
  }

  lemma AppendGet(acc: Metadata, f: Field, k: string)
    ensures Get(Append(acc, f), k) == Get(acc, k) + (if f.0 == k then [f.1] else [])
  {
  }

  lemma {:induction false} ValuesOfNonEmpty(fs: seq<Field>, k: string)
    ensures k in KeysOf(fs) <==> ValuesOf(fs, k) != []
  {
    if |fs| > 0 {
      ValuesOfNonEmpty(fs[1..], k);
    }
  }

  lemma GroupValuesNonEmpty(fs: seq<Field>)
    ensures forall k :: k in Group(fs) ==> |Group(fs)[k]| > 0
  {
    forall k | k in Group(fs)
      ensures |Group(fs)[k]| > 0
    {
      ValuesOfNonEmpty(fs, k);
    }
  }

  lemma AppendAllGroups(acc: Metadata, fs: seq<Field>)
    requires acc == map[]
    ensures AppendAll(acc, fs) == Group(fs)
  {
    AppendAllKeys(acc, fs);
    var m := AppendAll(acc, fs);
    forall k | k in m
      ensures m[k] == Group(fs)[k]
    {
      AppendAllValues(acc, fs, k);
    }
  }

  /** A key is present exactly when some field names it. */
  lemma {:induction false} KeysOfNamed(fs: seq<Field>, k: string)
    ensures k in KeysOf(fs) <==> exists i :: 0 <= i < |fs| && fs[i].0 == k
  {
    if |fs| > 0 {
      KeysOfNamed(fs[1..], k);
      if k in KeysOf(fs[1..]) {
        var i :| 0 <= i < |fs[1..]| && fs[1..][i].0 == k;
        assert fs[i + 1].0 == k;
      }
      if exists i :: 0 <= i < |fs| && fs[i].0 == k {
        var i :| 0 <= i < |fs| && fs[i].0 == k;
        if i > 0 {
          assert fs[1..][i - 1].0 == k;
        }
      }
    }
  }

  /** The loop reads only the header: whatever follows the first blank line, malformed or
      not, has no effect on the result. */
  lemma {:induction false} ReadLinesReadsHeader(lines: seq<string>, acc: Metadata)
    ensures ReadLines(lines, acc) == ReadLines(Header(lines), acc)
  {
    if |lines| > 0 && Strip(lines[0]) != "" {
      var h := Header(lines);
      HeaderStep(lines);
      ConsParts(lines[0], Header(lines[1..]));
      ReadLinesStep(lines, acc);
      ReadLinesStep(h, acc);
      if ParseLine(lines[0]).Ok? {
        ReadLinesReadsHeader(lines[1..], Append(acc, ParseLine(lines[0]).value));
      }
    }
  }

  lemma ConsParts(x: string, t: seq<string>)
    ensures ([x] + t)[0] == x && ([x] + t)[1..] == t
  {
  }

  /** `m[key][0]`: a KeyError when the key is absent, an IndexError when it has no value. */
  function FirstValue(m: Metadata, key: string): (r: Result<string, Error>)
    ensures r.Ok? <==> key in m && |m[key]| > 0
    ensures r.Ok? ==> r.value == m[key][0]
    ensures key !in m ==> r == Err(MissingKey(key))
  {
    if key !in m then Err(MissingKey(key))
    else if |m[key]| == 0 then Err(NoValues(key))
    else Ok(m[key][0])
  }
}

=== FILE: paths.dfy ===
/** Build targets and the destination paths that depend on them. */
module Paths {
  import opened Text

  /** The `Platform` enum. */
  datatype Platform = Linux | Osx | Windows {
    /** The enum member's `.name`. */
    function Name(): (r: string)
      ensures '-' !in r && |r| > 0
    {
      match this
      case Linux => "linux"
      case Osx => "osx"
      case Windows => "windows"
    }
  }

  /** What a `PackageBuilder` is built for: the Python version string (e.g. "3.5"), the
      platform and the bitness string ("64" or "32"). */
  datatype Target = Target(pythonVersion: string, platform: Platform, bitness: string)

  /** The placeholder for the install prefix, replaced when the package is installed. */
  const PREFIX: string := "/opt/anaconda1anaconda2anaconda3"

  /** `PackageBuilder.site_packages_path`. */
  function SitePackagesPath(t: Target): (r: string)
    ensures EndsWith(r, "/")
    ensures t.platform.Windows? ==> r == "Lib/site-packages/"
    ensures !t.platform.Windows? ==> r == "lib/python" + t.pythonVersion + "/site-packages/"
  {
    if t.platform.Windows? then "Lib/site-packages/"
    else "lib/python" + t.pythonVersion + "/site-packages/"
  }

  /** `PackageBuilder.scripts_path`. */
  function ScriptsPath(t: Target): (r: string)
    ensures EndsWith(r, "/")
    ensures r == if t.platform.Windows? then "Scripts/" else "bin/"
  {
    if t.platform.Windows? then "Scripts/" else "bin/"
  }

  /** Off Windows the site-packages directory names the Python version: two versions
      never share one. */
  lemma SitePackagesNamesVersion(t1: Target, t2: Target)
    requires !t1.platform.Windows? && !t2.platform.Windows?
    requires SitePackagesPath(t1) == SitePackagesPath(t2)
    ensures t1.pythonVersion == t2.pythonVersion
  {
    var a := SitePackagesPath(t1);
    var b := SitePackagesPath(t2);
    var n := |"lib/python"|;
    var m := |"/site-packages/"|;
    assert t1.pythonVersion == a[n..|a| - m];
    assert t2.pythonVersion == b[n..|b| - m];
  }

  /** A script never lands inside site-packages, nor a module inside the scripts directory. */
  lemma ScriptsOutsideSitePackages(t: Target, p: string)
    ensures !(StartsWith(p, ScriptsPath(t)) && StartsWith(p, SitePackagesPath(t)))
  {
    if StartsWith(p, ScriptsPath(t)) {
      assert p[0] == ScriptsPath(t)[0];
      assert SitePackagesPath(t)[0] != ScriptsPath(t)[0];
      if |SitePackagesPath(t)| <= |p| {
        assert p[..|SitePackagesPath(t)|][0] != SitePackagesPath(t)[0];
      }
    }
  }
}

=== FILE: scripts.dfy ===
/** `create_scripts`: a launcher script for every console entry point, written with
    `_write_script_unix` or `_write_script_windows`. */
module Scripts {
  import opened Wrappers
  import opened Errors
  import opened Text
  import opened Paths
  import opened Manifest
  import opened Archive

  /** The interpreter the `#!` line names; conda rewrites the prefix at install time. */
  const Interpreter: string := PREFIX + "/bin/python"

  /** The four lines of `script_template`, each with its newline. */
  const ShebangLine: string := "#!" + Interpreter + "\n"

  function ImportLine(mod: string, func: string): string {
    "from " + mod + " import " + func + "\n"
  }

  const MainGuardLine: string := "if __name__ == '__main__':\n"

  function CallLine(func: string): string {
    "    " + func + "()\n"
  }

  /** `script_template` filled in with the entry point's module and function. */
  function ScriptText(mod: string, func: string): string {
    ShebangLine + ImportLine(mod, func) + MainGuardLine + CallLine(func)
  }

  /** `ep.count(':') != 1` is rejected; otherwise `mod, func = ep.split(':')`. */
  function ParseEntryPoint(value: string): (r: Result<(string, string), Error>)
    ensures r.Ok? <==> Count(value, ':') == 1
    ensures r.Ok? ==> value == r.value.0 + ":" + r.value.1
    ensures r.Ok? ==> ':' !in r.value.0 && ':' !in r.value.1
    ensures r.Err? ==> r.error == BadEntryPoint(value)
  {
    if Count(value, ':') != 1 then Err(BadEntryPoint(value))
    else
      var parts := SplitFirst(value, ':').value;
      CountConcat(parts.0 + [':'], parts.1, ':');
      CountConcat(parts.0, [':'], ':');
      Ok(parts)
  }

  /** Joining a module and a function that hold no ':' gives an entry point that parses back
      to them. */
  lemma ParseEntryPointRoundTrip(mod: string, func: string)
    requires ':' !in mod && ':' !in func
    ensures ParseEntryPoint(mod + ":" + func) == Ok((mod, func))
  {
    assert mod + ":" + func == mod + [':'] + func;
    CountConcat(mod + [':'], func, ':');
    CountConcat(mod, [':'], ':');
    SplitFirstJoin(mod, ':', func);
  }

  /** Four newline-terminated lines joined with '\n' leave an empty last piece. */
  lemma JoinFourLines(a: string, b: string, c: string, d: string)
    ensures Join([a, b, c, d, ""], "\n") == a + "\n" + b + "\n" + c + "\n" + d + "\n"
  {
    var xs := [a, b, c, d, ""];
    assert xs[4..] == [""];
    assert xs[3..] == [d, ""];
    assert Join(xs[3..], "\n") == d + "\n" + "";
    assert xs[2..] == [c, d, ""];
    assert Join(xs[2..], "\n") == c + "\n" + (d + "\n");
    assert xs[1..] == [b, c, d, ""];
    assert Join(xs[1..], "\n") == b + "\n" + (c + "\n" + d + "\n");
  }

  /** The lines of the script without their terminators. */
  function ScriptLineList(mod: string, func: string): seq<string> {
    ["#!" + Interpreter, "from " + mod + " import " + func, "if __name__ == '__main__':", "    " + func + "()"]
  }

  lemma ScriptTextJoins(mod: string, func: string)
    ensures ScriptText(mod, func) == Join(ScriptLineList(mod, func) + [""], "\n")
  {
    var xs := ScriptLineList(mod, func);
    JoinFourLines(xs[0], xs[1], xs[2], xs[3]);
    assert ShebangLine == xs[0] + "\n";
    assert ImportLine(mod, func) == xs[1] + "\n";
    assert MainGuardLine == xs[2] + "\n";
    assert CallLine(func) == xs[3] + "\n";
    assert xs + [""] == [xs[0], xs[1], xs[2], xs[3], ""];
  }

  lemma ScriptLinesOneLine(mod: string, func: string)
    requires '\n' !in mod && '\n' !in func
    ensures forall i :: 0 <= i < 4 ==> '\n' !in ScriptLineList(mod, func)[i]
  {
    var xs := ScriptLineList(mod, func);
    assert '\n' !in xs[0];
    assert xs[1] == ("from " + mod) + (" import " + func);
    assert '\n' !in xs[2];
    assert '\n' !in xs[3];
  }

  /** The script has exactly four lines, each ending in a newline: the `#!` line naming the
      prefixed interpreter, the import, the `__main__` guard and the call. */
  lemma ScriptLines(mod: string, func: string)
    requires '\n' !in mod && '\n' !in func
    ensures Split(ScriptText(mod, func), '\n') ==
      ["#!" + Interpreter, "from " + mod + " import " + func, "if __name__ == '__main__':", "    " + func + "()", ""]
  {
    var xs := ScriptLineList(mod, func) + [""];
    ScriptTextJoins(mod, func);
    ScriptLinesOneLine(mod, func);
    assert forall i :: 0 <= i < |xs| ==> '\n' !in xs[i] by {
      forall i | 0 <= i < |xs|
        ensures '\n' !in xs[i]
      {
        if i < 4 {
          assert xs[i] == ScriptLineList(mod, func)[i];
        }
      }
    }
    SplitJoin(xs, '\n');
  }

  /** Every script starts with `#!` and the install prefix, which is why it is flagged for
      `has_prefix`. */
  lemma ScriptMentionsPrefix(mod: string, func: string)
    ensures StartsWith(ScriptText(mod, func), "#!" + PREFIX)
    ensures Contains(ScriptText(mod, func), PREFIX)
  {
    var s := ScriptText(mod, func);
    var rest := ImportLine(mod, func) + MainGuardLine + CallLine(func);
    assert s == ShebangLine + rest;
    StartsWithAppend(ShebangLine, rest);
    assert ShebangLine == ("#!" + PREFIX) + "/bin/python\n";
    StartsWithAppend("#!" + PREFIX, "/bin/python\n");
    StartsWithTrans(s, ShebangLine, "#!" + PREFIX);
    assert OccursAt(s, PREFIX, 2);
  }

  /** The launcher architecture `find_exe` is asked for. */
  function LauncherArch(t: Target): string {
    if t.bitness == "64" then "x64" else "x86"
  }

  /** `_write_script_unix`: the script under the scripts directory, flagged for prefix
      replacement. */
  function WriteScriptUnix(t: Target, name: string, contents: string, st: State): State {
    AddRecorded(st, Member(ScriptsPath(t) + name, Data(contents)), true)
  }

  /** `_write_script_windows`: the script as `<name>-script.py`, then the launcher
      `<name>.exe`, which is recorded without the flag. */
  function WriteScriptWindows(t: Target, name: string, contents: string, st: State): State {
    var st' := WriteScriptUnix(t, name + "-script.py", contents, st);
    AddRecorded(st', Member(ScriptsPath(t) + name + ".exe", Launcher(LauncherArch(t))), false)
  }

  /** The platform's writer for one script. */
  function WriteScript(t: Target, name: string, contents: string, st: State): State {
    if t.platform.Windows? then WriteScriptWindows(t, name, contents, st)
    else WriteScriptUnix(t, name, contents, st)
  }

  /** The loop of `create_scripts` over the `console_scripts` items, stopping at the first
      entry point that does not parse. */
  function WriteScripts(t: Target, eps: seq<(string, string)>, st: State): (r: Result<State, Error>)
    decreases |eps|
  {
    if |eps| == 0 then Ok(st)
    else
      match ParseEntryPoint(eps[0].1)
      case Err(e) => Err(e)
      case Ok(parts) => WriteScripts(t, eps[1..], WriteScript(t, eps[0].0, ScriptText(parts.0, parts.1), st))
  }

  /** Every entry point value has exactly one ':'. */
  predicate EntryPointsParse(eps: seq<(string, string)>) {
    forall i :: 0 <= i < |eps| ==> Count(eps[i].1, ':') == 1
  }

  /** The script text for an entry point value that parses. */
  function ScriptFor(value: string): string {
    match ParseEntryPoint(value)
    case Ok(parts) => ScriptText(parts.0, parts.1)
    case Err(_) => ""
  }

  /** The path `_write_script_unix` writes for an entry point: `<name>` on Linux and OS X,
      `<name>-script.py` on Windows. */
  function ScriptPath(t: Target, name: string): string {
    if t.platform.Windows? then ScriptsPath(t) + name + "-script.py" else ScriptsPath(t) + name
  }

  /** The members written for one entry point: the script, and on Windows its launcher. */
  function EntryPointMembers(t: Target, ep: (string, string)): seq<Member> {
    if t.platform.Windows? then
      [Member(ScriptPath(t, ep.0), Data(ScriptFor(ep.1))), Member(ScriptsPath(t) + ep.0 + ".exe", Launcher(LauncherArch(t)))]
    else
      [Member(ScriptPath(t, ep.0), Data(ScriptFor(ep.1)))]
  }

  /** The members `create_scripts` writes, entry point by entry point. */
  function ScriptMembers(t: Target, eps: seq<(string, string)>): seq<Member>
    decreases |eps|
  {
    if |eps| == 0 then [] else EntryPointMembers(t, eps[0]) + ScriptMembers(t, eps[1..])
  }

  /** The paths flagged for prefix replacement: every script, never a launcher. */
  function FlaggedScripts(t: Target, eps: seq<(string, string)>): seq<string>
    decreases |eps|
  {
    if |eps| == 0 then [] else [ScriptPath(t, eps[0].0)] + FlaggedScripts(t, eps[1..])
  }

  /** One entry point that parses: its members appended and recorded, the script flagged. */
  lemma WriteScriptStep(t: Target, ep: (string, string), st: State)
    requires Count(ep.1, ':') == 1
    ensures var st' := WriteScript(t, ep.0, ScriptFor(ep.1), st);
      && st'.archive == st.archive + EntryPointMembers(t, ep)
      && st'.manifest.files == st.manifest.files + MemberPaths(EntryPointMembers(t, ep))
      && st'.manifest.hasPrefixFiles == st.manifest.hasPrefixFiles + [ScriptPath(t, ep.0)]
  {
    var script := Member(ScriptPath(t, ep.0), Data(ScriptFor(ep.1)));
    if t.platform.Windows? {
      var launcher := Member(ScriptsPath(t) + ep.0 + ".exe", Launcher(LauncherArch(t)));
      var mid := AddRecorded(st, script, true);
      assert ScriptsPath(t) + (ep.0 + "-script.py") == ScriptPath(t, ep.0);
      assert WriteScript(t, ep.0, ScriptFor(ep.1), st) == AddRecorded(mid, launcher, false);
      AddRecordedStep(st, script, true);
      AddRecordedStep(mid, launcher, false);
      AppendSteps(st, mid, AddRecorded(mid, launcher, false), [script], [launcher], [script.path], []);
      assert [script] + [launcher] == EntryPointMembers(t, ep);
    } else {
      AddRecordedStep(st, script, true);
    }
  }

  lemma WriteScriptsUnfold(t: Target, eps: seq<(string, string)>, st: State)
    requires |eps| > 0 && Count(eps[0].1, ':') == 1
    ensures WriteScripts(t, eps, st) == WriteScripts(t, eps[1..], WriteScript(t, eps[0].0, ScriptFor(eps[0].1), st))
  {
  }

  /** `create_scripts` succeeds exactly when every entry point value has one ':'; otherwise
      it reports the first value that does not. */
  lemma {:induction false} WriteScriptsOk(t: Target, eps: seq<(string, string)>, st: State)
    ensures WriteScripts(t, eps, st).Ok? <==> EntryPointsParse(eps)
    ensures WriteScripts(t, eps, st).Err? ==>
      exists i :: 0 <= i < |eps| && Count(eps[i].1, ':') != 1 && EntryPointsParse(eps[..i])
        && WriteScripts(t, eps, st).error == BadEntryPoint(eps[i].1)
    decreases |eps|
  {
    if |eps| > 0 {
      EntryPointsParseCons(eps);
      if Count(eps[0].1, ':') != 1 {
        assert WriteScripts(t, eps, st) == Err(BadEntryPoint(eps[0].1));
        assert EntryPointsParse(eps[..0]);
      } else {
        WriteScriptsUnfold(t, eps, st);
        var st' := WriteScript(t, eps[0].0, ScriptFor(eps[0].1), st);
        WriteScriptsOk(t, eps[1..], st');
        if WriteScripts(t, eps, st).Err? {
          var i :| 0 <= i < |eps[1..]| && Count(eps[1..][i].1, ':') != 1 && EntryPointsParse(eps[1..][..i])
            && WriteScripts(t, eps[1..], st').error == BadEntryPoint(eps[1..][i].1);
          PrefixParseCons(eps, i);
          assert eps[1..][i] == eps[i + 1];
        }
      }
    }
  }

  /** A sequence of entry points parses when its first one does and the rest do. */
  lemma EntryPointsParseCons(eps: seq<(string, string)>)
    requires |eps| > 0
    ensures EntryPointsParse(eps) <==> Count(eps[0].1, ':') == 1 && EntryPointsParse(eps[1..])
  {
    if Count(eps[0].1, ':') == 1 && EntryPointsParse(eps[1..]) {
      forall i | 0 < i < |eps|
        ensures Count(eps[i].1, ':') == 1
      {
        assert eps[i] == eps[1..][i - 1];
      }
    }
    if EntryPointsParse(eps) {
      forall i | 0 <= i < |eps| - 1
        ensures Count(eps[1..][i].1, ':') == 1
      {
        assert eps[1..][i] == eps[i + 1];
      }
    }
  }

  lemma PrefixParseCons(eps: seq<(string, string)>, i: nat)
    requires i < |eps| - 1
    requires Count(eps[0].1, ':') == 1 && EntryPointsParse(eps[1..][..i])
    ensures EntryPointsParse(eps[..i + 1])
  {
    forall k | 0 < k < i + 1
      ensures Count(eps[k].1, ':') == 1
    {
      assert eps[k] == eps[1..][..i][k - 1];
    }
  }

  /** When every entry point parses, `create_scripts` writes the script members (and on
      Windows the launchers) in entry point order, records each of them, and flags exactly
      the scripts. */
  lemma {:induction false} WriteScriptsWrites(t: Target, eps: seq<(string, string)>, st: State)
    requires EntryPointsParse(eps)
    ensures WriteScripts(t, eps, st).Ok?
    ensures WriteScripts(t, eps, st).value.archive == st.archive + ScriptMembers(t, eps)
    ensures WriteScripts(t, eps, st).value.manifest.files == st.manifest.files + MemberPaths(ScriptMembers(t, eps))
    ensures WriteScripts(t, eps, st).value.manifest.hasPrefixFiles == st.manifest.hasPrefixFiles + FlaggedScripts(t, eps)
    decreases |eps|
  {
    if |eps| == 0 {
      WriteScriptsNone(t, eps, st);
    } else {
      WriteScriptsUnfold(t, eps, st);
      var st' := WriteScript(t, eps[0].0, ScriptFor(eps[0].1), st);
      EntryPointsParseCons(eps);
      WriteScriptStep(t, eps[0], st);
      WriteScriptsWrites(t, eps[1..], st');
      AppendSteps(st, st', WriteScripts(t, eps[1..], st').value, EntryPointMembers(t, eps[0]), ScriptMembers(t, eps[1..]),
        [ScriptPath(t, eps[0].0)], FlaggedScripts(t, eps[1..]));
      assert ScriptMembers(t, eps) == EntryPointMembers(t, eps[0]) + ScriptMembers(t, eps[1..]);
      assert FlaggedScripts(t, eps) == [ScriptPath(t, eps[0].0)] + FlaggedScripts(t, eps[1..]);
    }
  }

  /** No entry points: nothing written. */
  lemma WriteScriptsNone(t: Target, eps: seq<(string, string)>, st: State)
    requires |eps| == 0
    ensures WriteScripts(t, eps, st) == Ok(st)
    ensures st.archive + ScriptMembers(t, eps) == st.archive
    ensures st.manifest.files + MemberPaths(ScriptMembers(t, eps)) == st.manifest.files
    ensures st.manifest.hasPrefixFiles + FlaggedScripts(t, eps) == st.manifest.hasPrefixFiles
  {
  }
  /** Writing one script keeps the builder consistent: the script mentions the prefix it is
      flagged for, and a launcher is not flagged. */
  lemma WriteScriptConsistent(t: Target, name: string, mod: string, func: string, st: State)
    requires Consistent(st)
    ensures Consistent(WriteScript(t, name, ScriptText(mod, func), st))
  {
    var s := ScriptText(mod, func);
    ScriptMentionsPrefix(mod, func);
    if t.platform.Windows? {
      var m := Member(ScriptsPath(t) + (name + "-script.py"), Data(s));
      AddRecordedConsistent(st, m, true);
      AddRecordedConsistent(AddRecorded(st, m, true), Member(ScriptsPath(t) + name + ".exe", Launcher(LauncherArch(t))), false);
    } else {
      AddRecordedConsistent(st, Member(ScriptsPath(t) + name, Data(s)), true);
    }
  }

  lemma {:induction false} WriteScriptsConsistent(t: Target, eps: seq<(string, string)>, st: State)
    requires Consistent(st)
    requires WriteScripts(t, eps, st).Ok?
    ensures Consistent(WriteScripts(t, eps, st).value)
    decreases |eps|
  {
    if |eps| > 0 {
      var parts := ParseEntryPoint(eps[0].1).value;
      var st' := WriteScript(t, eps[0].0, ScriptText(parts.0, parts.1), st);
      WriteScriptConsistent(t, eps[0].0, parts.0, parts.1, st);
      WriteScriptsConsistent(t, eps[1..], st');
    }
  }

  /** Only scripts are flagged, and they all live in the scripts directory. */
  lemma {:induction false} FlaggedInScriptsDir(t: Target, eps: seq<(string, string)>)
    ensures forall i :: 0 <= i < |FlaggedScripts(t, eps)| ==> StartsWith(FlaggedScripts(t, eps)[i], ScriptsPath(t))
    decreases |eps|
  {
    if |eps| > 0 {
      FlaggedInScriptsDir(t, eps[1..]);
      var p := ScriptPath(t, eps[0].0);
      if t.platform.Windows? {
        assert p == ScriptsPath(t) + (eps[0].0 + "-script.py");
      }
      assert p[..|ScriptsPath(t)|] == ScriptsPath(t);
    }
  }

  /** One script per entry point on Linux and OS X, a script and a launcher per entry point
      on Windows; one flagged path per entry point everywhere. */
  lemma {:induction false} ScriptCounts(t: Target, eps: seq<(string, string)>)
    ensures |ScriptMembers(t, eps)| == (if t.platform.Windows? then 2 else 1) * |eps|
    ensures |FlaggedScripts(t, eps)| == |eps|
    decreases |eps|
  {
    if |eps| > 0 {
      ScriptCounts(t, eps[1..]);
    }
  }
}

=== FILE: seqs.dfy ===
/** Facts about sequences that hold whatever the element type. Stating them generically
    keeps the element type's own equality out of the proofs that use them. */
module Seqs {
  lemma Assoc<T>(a: seq<T>, b: seq<T>, c: seq<T>)
    ensures (a + b) + c == a + (b + c)
  {
  }

  /** Taking one more element of `s` appends it. */
  lemma SnocSlice<T>(s: seq<T>, i: nat)
    requires i < |s|
    ensures s[..i + 1] == s[..i] + [s[i]]
    ensures s[..i + 1][..i] == s[..i]
    ensures s[..i + 1][i] == s[i]
  {
  }

  /** The two halves of a concatenation are recovered by slicing at the join. */
  lemma AppendParts<T>(a: seq<T>, b: seq<T>)
    ensures (a + b)[..|a|] == a && (a + b)[|a|..] == b
    ensures forall i :: 0 <= i < |b| ==> (a + b)[|a| + i] == b[i]
  {
  }
}

=== FILE: text.dfy ===
/** The handful of Python `str` operations wheel2conda.py relies on. */
module Text {
  import opened Wrappers

  /** Python's `str.isspace` for one character: the characters `str.strip()` removes. */
  predicate IsSpace(c: char) {
    || c == ' '
    || ('\t' <= c <= '\r')
    || ('\U{1C}' <= c <= '\U{1F}')
    || c == '\U{85}' || c == '\U{A0}' || c == '\U{1680}'
    || ('\U{2000}' <= c <= '\U{200A}')
    || c == '\U{2028}' || c == '\U{2029}' || c == '\U{202F}' || c == '\U{205F}' || c == '\U{3000}'
  }

  predicate AllSpace(s: string) {
    forall i :: 0 <= i < |s| ==> IsSpace(s[i])
  }

  predicate StartsWith(s: string, prefix: string) {
    |prefix| <= |s| && s[..|prefix|] == prefix
  }

  predicate EndsWith(s: string, suffix: string) {
    |suffix| <= |s| && s[|s| - |suffix|..] == suffix
  }

  predicate OccursAt(s: string, sub: string, i: int) {
    0 <= i <= |s| - |sub| && s[i..i + |sub|] == sub
  }

  predicate Contains(s: string, sub: string) {
    exists i :: 0 <= i <= |s| && OccursAt(s, sub, i)
  }

  lemma StartsWithAppend(a: string, b: string)
    ensures StartsWith(a + b, a)
  {
    assert (a + b)[..|a|] == a;
  }

  lemma StartsWithTrans(a: string, b: string, c: string)
    requires StartsWith(a, b) && StartsWith(b, c)
    ensures StartsWith(a, c)
  {
    assert a[..|c|] == b[..|c|];
  }

  /** What `str.strip()` returns: nothing to strip at either end. */
  predicate IsStripped(s: string) {
    s == [] || (!IsSpace(s[0]) && !IsSpace(s[|s| - 1]))
  }

  /** `str.strip()`: leading and trailing whitespace removed, one character at a time. */
  function Strip(s: string): (r: string)
    ensures |r| <= |s|
    ensures r == [] <==> AllSpace(s)
    ensures IsStripped(r)
    decreases |s|
  {
    if |s| > 0 && IsSpace(s[0]) then
      AllSpaceFront(s);
      Strip(s[1..])
    else if |s| > 0 && IsSpace(s[|s| - 1]) then
      AllSpaceBack(s);
      Strip(s[..|s| - 1])
    else
      s
  }

  lemma AllSpaceFront(s: string)
    requires |s| > 0
    ensures AllSpace(s) <==> IsSpace(s[0]) && AllSpace(s[1..])
  {
    if IsSpace(s[0]) && AllSpace(s[1..]) {
      forall i | 0 < i < |s|
        ensures IsSpace(s[i])
      {
        assert s[i] == s[1..][i - 1];
      }
    }
  }

  lemma AllSpaceBack(s: string)
    requires |s| > 0
    ensures AllSpace(s) <==> IsSpace(s[|s| - 1]) && AllSpace(s[..|s| - 1])
  {
    if IsSpace(s[|s| - 1]) && AllSpace(s[..|s| - 1]) {
      forall i | 0 <= i < |s| - 1
        ensures IsSpace(s[i])
      {
        assert s[i] == s[..|s| - 1][i];
      }
    }
  }

  /** Stripping removes exactly the surrounding whitespace: whatever lies between
      whitespace runs, and starts and ends with something else, is the result. */
  lemma {:induction false} StripExact(a: string, m: string, b: string)
    requires AllSpace(a) && AllSpace(b)
    requires IsStripped(m)
    ensures Strip(a + m + b) == m
    decreases |a| + |b|
  {
    var s := a + m + b;
    if a != [] {
      assert s[0] == a[0];
      assert s[1..] == a[1..] + m + b;
      StripExact(a[1..], m, b);
    } else if b != [] {
      var n := |b| - 1;
      assert s == m + b;
      if m != [] {
        assert s[0] == m[0];
      } else {
        assert s[0] == b[0];
        assert s[1..] == [] + m + b[1..];
        StripExact([], m, b[1..]);
        return;
      }
      assert s[|s| - 1] == b[n];
      assert s[..|s| - 1] == [] + m + b[..n];
      StripExact([], m, b[..n]);
    } else {
      assert s == m;
    }
  }

  /** Stripping twice is stripping once. */
  lemma StripIdempotent(s: string)
    ensures Strip(Strip(s)) == Strip(s)
  {
    var r := Strip(s);
    StripExact([], r, []);
    assert [] + r + [] == r;
  }

  /** Stripping never introduces a character. */
  lemma StripKeepsOut(s: string, c: char)
    requires c !in s
    ensures c !in Strip(s)
    decreases |s|
  {
    if |s| > 0 && IsSpace(s[0]) {
      assert c !in s[1..] by {
        assert forall i :: 0 <= i < |s| - 1 ==> s[1..][i] == s[i + 1];
      }
      StripKeepsOut(s[1..], c);
    } else if |s| > 0 && IsSpace(s[|s| - 1]) {
      assert forall i :: 0 <= i < |s| - 1 ==> s[..|s| - 1][i] == s[i];
      StripKeepsOut(s[..|s| - 1], c);
    }
  }

  /** The position of the first `c` in `s`, as `str.find` reports it. */
  function IndexOf(s: string, c: char): (r: Option<nat>)
    ensures r.None? <==> c !in s
    ensures r.Some? ==> r.value < |s| && s[r.value] == c && c !in s[..r.value]
  {
    if |s| == 0 then None
    else if s[0] == c then Some(0)
    else
      match IndexOf(s[1..], c)
      case None => None
      case Some(k) =>
        assert s[..k + 1] == [s[0]] + s[1..][..k];
        Some(k + 1)
  }

  lemma IndexOfJoin(a: string, c: char, b: string)
    requires c !in a
    ensures IndexOf(a + [c] + b, c) == Some(|a|)
  {
    var s := a + [c] + b;
    var k := IndexOf(s, c).value;
    assert s[|a|] == c;
    assert forall i :: 0 <= i < |a| ==> s[i] == a[i];
  }

  /** `s.split(c, 1)` when `c` occurs: the text before and after its first occurrence. */
  function SplitFirst(s: string, c: char): (r: Option<(string, string)>)
    ensures r.Some? <==> c in s
    ensures r.Some? ==> s == r.value.0 + [c] + r.value.1 && c !in r.value.0
  {
    match IndexOf(s, c)
    case None => None
    case Some(k) =>
      assert s == s[..k] + [c] + s[k + 1..];
      Some((s[..k], s[k + 1..]))
  }

  /** Splitting at the first separator undoes joining with it. */
  lemma SplitFirstJoin(a: string, c: char, b: string)
    requires c !in a
    ensures SplitFirst(a + [c] + b, c) == Some((a, b))
  {
    IndexOfJoin(a, c, b);
    var s := a + [c] + b;
    assert s[..|a|] == a;
    assert s[|a| + 1..] == b;
  }

  /** `s.count(c)`. */
  function Count(s: string, c: char): (n: nat)
    ensures n == 0 <==> c !in s
    ensures n <= |s|
  {
    if |s| == 0 then 0
    else (if s[0] == c then 1 else 0) + Count(s[1..], c)
  }

  lemma {:induction false} CountConcat(a: string, b: string, c: char)
    ensures Count(a + b, c) == Count(a, c) + Count(b, c)
  {
    if a != [] {
      assert (a + b)[1..] == a[1..] + b;
      CountConcat(a[1..], b, c);
    } else {
      assert a + b == b;
    }
  }

  /** `sep.join(xs)`. */
  function Join(xs: seq<string>, sep: string): string
  {
    if |xs| == 0 then ""
    else if |xs| == 1 then xs[0]
    else xs[0] + sep + Join(xs[1..], sep)
  }

  /** `s.split(c)`: the pieces between occurrences of `c` (at least one). */
  function Split(s: string, c: char): (r: seq<string>)
    ensures |r| > 0
    ensures forall i :: 0 <= i < |r| ==> c !in r[i]
    decreases |s|
  {
    match IndexOf(s, c)
    case None => [s]
    case Some(k) => [s[..k]] + Split(s[k + 1..], c)
  }

  /** Splitting on a separator that no piece contains gives back the pieces. */
  lemma {:induction false} SplitJoin(xs: seq<string>, c: char)
    requires |xs| > 0
    requires forall i :: 0 <= i < |xs| ==> c !in xs[i]
    ensures Split(Join(xs, [c]), c) == xs
  {
    if |xs| > 1 {
      var rest := Join(xs[1..], [c]);
      var s := xs[0] + [c] + rest;
      assert Join(xs, [c]) == s;
      IndexOfJoin(xs[0], c, rest);
      assert s[..|xs[0]|] == xs[0];
      assert s[|xs[0]| + 1..] == rest;
      assert Split(s, c) == [xs[0]] + Split(rest, c);
      SplitJoin(xs[1..], c);
      assert xs == [xs[0]] + xs[1..];
    }
  }

  /** Concatenation of a sequence of strings. */
  function Concat(xs: seq<string>): string
  {
    if |xs| == 0 then "" else xs[0] + Concat(xs[1..])
  }

  lemma ConcatCons(x: string, xs: seq<string>)
    ensures Concat([x] + xs) == x + Concat(xs)
  {
    assert ([x] + xs)[1..] == xs;
  }

  /** Iterating over a text file: each line keeps its '\n' terminator; only the last may lack it. */
  function Lines(text: string): (r: seq<string>)
    ensures forall i :: 0 <= i < |r| ==> |r[i]| > 0 && '\n' !in r[i][..|r[i]| - 1]
    ensures forall i :: 0 <= i < |r| - 1 ==> r[i][|r[i]| - 1] == '\n'
    decreases |text|
  {
    if |text| == 0 then []
    else
      match IndexOf(text, '\n')
      case None =>
        assert text[..|text| - 1] <= text;
        [text]
      case Some(k) =>
        var rest := Lines(text[k + 1..]);
        assert text[..k + 1][..k] == text[..k];
        [text[..k + 1]] + rest
  }

  /** Reading the lines back to back reproduces the file. */
  lemma {:induction false} LinesConcat(text: string)
    ensures Concat(Lines(text)) == text
    decreases |text|
  {
    if |text| > 0 {
      match IndexOf(text, '\n')
      case None =>
        assert Lines(text) == [text];
        assert Concat([text]) == text + Concat([]);
      case Some(k) =>
        var line, rest := text[..k + 1], text[k + 1..];
        LinesConcat(rest);
        assert Lines(text) == [line] + Lines(rest);
        ConcatCons(line, Lines(rest));
        assert text == line + rest;
    }
  }

  function LowerChar(c: char): char {
    if 'A' <= c <= 'Z' then (c as int + 32) as char else c
  }

  /** `str.lower()` restricted to ASCII letters. */
  function Lower(s: string): (r: string)
    ensures |r| == |s|
  {
    seq(|s|, i requires 0 <= i < |s| => LowerChar(s[i]))
  }

  /** `s.replace(c, '')` for one character `c`. */
  function RemoveAll(s: string, c: char): (r: string)
    ensures c !in r
    ensures |r| == |s| - Count(s, c)
  {
    if |s| == 0 then ""
    else if s[0] == c then RemoveAll(s[1..], c)
    else [s[0]] + RemoveAll(s[1..], c)
  }

  /** Removing from a concatenation removes from each part. */
  lemma {:induction false} RemoveAllConcat(a: string, b: string, c: char)
    ensures RemoveAll(a + b, c) == RemoveAll(a, c) + RemoveAll(b, c)
  {
    if a != [] {
      assert (a + b)[0] == a[0];
      assert (a + b)[1..] == a[1..] + b;
      RemoveAllConcat(a[1..], b, c);
    } else {
      assert a + b == b;
    }
  }

  /** On one character: gone if it is `c`, kept otherwise. */
  lemma RemoveAllChar(x: char, c: char)
    ensures RemoveAll([x], c) == if x == c then [] else [x]
  {
    assert [x][1..] == [];
  }

  /** A string without `c` is left as it is. */
  lemma {:induction false} RemoveAllAbsent(s: string, c: char)
    requires c !in s
    ensures RemoveAll(s, c) == s
  {
    if s != [] {
      assert c !in s[1..] by {
        assert forall i :: 0 <= i < |s| - 1 ==> s[1..][i] == s[i + 1];
      }
      RemoveAllAbsent(s[1..], c);
      assert s == [s[0]] + s[1..];
    }
  }

  /** Removing the one separator of `a + [c] + b` joins the two sides. */
  lemma RemoveAllJoin(a: string, c: char, b: string)
    requires c !in a && c !in b
    ensures RemoveAll(a + [c] + b, c) == a + b
  {
    RemoveAllConcat(a + [c], b, c);
    RemoveAllConcat(a, [c], c);
    RemoveAllChar(c, c);
    RemoveAllAbsent(a, c);
    RemoveAllAbsent(b, c);
    assert a + [] == a;
  }
}

=== FILE: tree.dfy ===
/** The unpacked wheel as a tree of files and directories, and the os.walk order in which
    `record_file_or_dir` visits it. */
module Tree {
  import opened Text

  /** An entry of the unpacked wheel: a regular file with its text, or a directory with
      its entries in listing order. Names are plain: non-empty, no '/', not '.' or '..'. */
  datatype Node = File(name: string, content: string) | Dir(name: string, children: seq<Node>)

  /** A regular file placed at a path of the output archive. */
  datatype Placed = Placed(path: string, content: string)

  /** `posixpath.normpath(posixpath.join(arc, name))` for a normal `arc` and a plain name. */
  function JoinPath(arc: string, name: string): string {
    arc + "/" + name
  }

  /** `path` is `root` itself or lies below it. */
  predicate Under(path: string, root: string) {
    path == root || StartsWith(path, root + "/")
  }

  /** The regular files at or below `n`, each named by its path from `arc`: a file is `arc`
      itself; a directory is walked top-down as os.walk does. */
  function Walk(arc: string, n: Node): seq<Placed>
  {
    match n
    case File(_, content) => [Placed(arc, content)]
    case Dir(_, children) => WalkDir(arc, children)
  }

  /** One os.walk step: first the files directly in the directory, then each
      sub-directory's walk, both in listing order. */
  function WalkDir(arc: string, cs: seq<Node>): seq<Placed>
    decreases cs, 1
  {
    FilesIn(arc, cs) + SubdirsIn(arc, cs)
  }

  function FilesIn(arc: string, cs: seq<Node>): seq<Placed>
  {
    if |cs| == 0 then []
    else
      (if cs[0].File? then [Placed(JoinPath(arc, cs[0].name), cs[0].content)] else [])
      + FilesIn(arc, cs[1..])
  }

  function SubdirsIn(arc: string, cs: seq<Node>): seq<Placed>
    decreases cs, 0
  {
    if |cs| == 0 then []
    else
      (if cs[0].Dir? then WalkDir(JoinPath(arc, cs[0].name), cs[0].children) else [])
      + SubdirsIn(arc, cs[1..])
  }

  /** The paths of placed files, in order. */
  function PathList(ps: seq<Placed>): (r: seq<string>)
    ensures |r| == |ps|
    ensures forall i :: 0 <= i < |ps| ==> r[i] == ps[i].path
  {
    if |ps| == 0 then [] else [ps[0].path] + PathList(ps[1..])
  }

  /** The number of regular files at or below `n`. */
  function FileCount(n: Node): nat
  {
    match n
    case File(_, _) => 1
    case Dir(_, children) => FileCountAll(children)
  }

  function FileCountAll(cs: seq<Node>): nat
  {
    if |cs| == 0 then 0 else FileCount(cs[0]) + FileCountAll(cs[1..])
  }

  /** The walk visits every regular file exactly as often as the tree holds files. */
  lemma {:induction false} WalkCount(arc: string, n: Node)
    ensures |Walk(arc, n)| == FileCount(n)
  {
    if n.Dir? {
      WalkDirCount(arc, n.children);
    }
  }

  lemma {:induction false} WalkDirCount(arc: string, cs: seq<Node>)
    ensures |WalkDir(arc, cs)| == FileCountAll(cs)
    decreases cs, 1
  {
    PartsCount(arc, cs);
  }

  lemma {:induction false} PartsCount(arc: string, cs: seq<Node>)
    ensures |FilesIn(arc, cs)| + |SubdirsIn(arc, cs)| == FileCountAll(cs)
    decreases cs, 0
  {
    if |cs| > 0 {
      PartsCount(arc, cs[1..]);
      if cs[0].Dir? {
        WalkDirCount(JoinPath(arc, cs[0].name), cs[0].children);
      }
    }
  }

  lemma UnderJoin(p: string, arc: string, name: string)
    requires Under(p, JoinPath(arc, name))
    ensures StartsWith(p, arc + "/")
  {
    var root := arc + "/";
    assert JoinPath(arc, name)[..|root|] == root;
    if p != JoinPath(arc, name) {
      assert p[..|JoinPath(arc, name) + "/"|] == JoinPath(arc, name) + "/";
      assert p[..|root|] == (JoinPath(arc, name) + "/")[..|root|];
    }
  }

  /** Every file the walk of `n` yields lies at or below `arc`. */
  lemma {:induction false} WalkUnder(arc: string, n: Node)
    ensures forall i :: 0 <= i < |Walk(arc, n)| ==> Under(Walk(arc, n)[i].path, arc)
  {
    if n.Dir? {
      WalkDirUnder(arc, n.children);
    }
  }

  lemma {:induction false} WalkDirUnder(arc: string, cs: seq<Node>)
    ensures forall i :: 0 <= i < |WalkDir(arc, cs)| ==> StartsWith(WalkDir(arc, cs)[i].path, arc + "/")
    decreases cs, 1
  {
    FilesInUnder(arc, cs);
    SubdirsInUnder(arc, cs);
  }

  lemma {:induction false} FilesInUnder(arc: string, cs: seq<Node>)
    ensures forall i :: 0 <= i < |FilesIn(arc, cs)| ==> StartsWith(FilesIn(arc, cs)[i].path, arc + "/")
  {
    if |cs| > 0 {
      FilesInUnder(arc, cs[1..]);
      if cs[0].File? {
        UnderJoin(JoinPath(arc, cs[0].name), arc, cs[0].name);
      }
    }
  }

  lemma {:induction false} SubdirsInUnder(arc: string, cs: seq<Node>)
    ensures forall i :: 0 <= i < |SubdirsIn(arc, cs)| ==> StartsWith(SubdirsIn(arc, cs)[i].path, arc + "/")
    decreases cs, 0
  {
    if |cs| > 0 {
      SubdirsInUnder(arc, cs[1..]);
      if cs[0].Dir? {
        var sub := JoinPath(arc, cs[0].name);
        WalkDirUnder(sub, cs[0].children);
        forall i | 0 <= i < |WalkDir(sub, cs[0].children)|
          ensures StartsWith(WalkDir(sub, cs[0].children)[i].path, arc + "/")
        {
          UnderJoin(WalkDir(sub, cs[0].children)[i].path, arc, cs[0].name);
        }
      }
    }
  }
}

=== FILE: wheel.dfy ===
/** `check_wheel_contents`: the structural and metadata rules an unpacked wheel must meet. */
module Wheel {
  import opened Wrappers
  import opened Errors
  import opened Text
  import opened Tree
  import opened MetadataParser
  import opened Seqs

  predicate IsDistInfo(n: Node) {
    EndsWith(n.name, ".dist-info")
  }

  predicate IsDataDir(n: Node) {
    EndsWith(n.name, ".data")
  }

  /** How many top-level entries are named `*.dist-info`. */
  function CountDistInfo(s: seq<Node>): nat {
    if |s| == 0 then 0
    else CountDistInfo(s[..|s| - 1]) + (if IsDistInfo(s[|s| - 1]) then 1 else 0)
  }

  /** How many top-level entries are named `*.data`. */
  function CountData(s: seq<Node>): nat {
    if |s| == 0 then 0
    else CountData(s[..|s| - 1]) + (if IsDataDir(s[|s| - 1]) then 1 else 0)
  }

  /** The layout rules: exactly one `.dist-info` entry, at most one `.data` entry, and
      every entry of either kind a directory. */
  predicate WellFormedLayout(entries: seq<Node>) {
    && CountDistInfo(entries) == 1
    && CountData(entries) <= 1
    && forall i :: 0 <= i < |entries| && (IsDistInfo(entries[i]) || IsDataDir(entries[i])) ==> entries[i].Dir?
  }

  /** A layout error, and the violation of the layout rules it reports. */
  predicate IsLayoutError(entries: seq<Node>, e: Error) {
    && e.BadWheel?
    && match e.reason
       case DistInfoNotDirectory => exists i :: 0 <= i < |entries| && IsDistInfo(entries[i]) && entries[i].File?
       case MultipleDistInfo => CountDistInfo(entries) >= 2
       case DataNotDirectory => exists i :: 0 <= i < |entries| && IsDataDir(entries[i]) && entries[i].File?
       case MultipleData => CountData(entries) >= 2
       case MissingDistInfo => CountDistInfo(entries) == 0
       case _ => false
  }

  /** The loop meets the entry at `i` and raises `reason` for it, given the entries
      before it. */
  predicate RejectedAt(entries: seq<Node>, i: int, reason: BadWheelReason) {
    && 0 <= i < |entries|
    && match reason
       case DistInfoNotDirectory => IsDistInfo(entries[i]) && entries[i].File?
       case MultipleDistInfo => IsDistInfo(entries[i]) && entries[i].Dir? && CountDistInfo(entries[..i]) > 0
       case DataNotDirectory => IsDataDir(entries[i]) && entries[i].File?
       case MultipleData => IsDataDir(entries[i]) && entries[i].Dir? && CountData(entries[..i]) > 0
       case _ => false
  }

  /** The first `i` entries pass the loop without an error. */
  predicate PrefixOk(entries: seq<Node>, i: int) {
    && 0 <= i <= |entries|
    && CountDistInfo(entries[..i]) <= 1
    && CountData(entries[..i]) <= 1
    && forall j :: 0 <= j < i && (IsDistInfo(entries[j]) || IsDataDir(entries[j])) ==> entries[j].Dir?
  }

  /** The reason `check_wheel_contents` raises for the layout: the one the first offending
      entry gives, or the missing `.dist-info` directory once every entry passed. */
  predicate FirstLayoutError(entries: seq<Node>, reason: BadWheelReason) {
    || (exists i :: 0 <= i < |entries| && PrefixOk(entries, i) && RejectedAt(entries, i, reason))
    || (reason == MissingDistInfo && PrefixOk(entries, |entries|) && CountDistInfo(entries) == 0)
  }

  /** No name ends in both `.dist-info` and `.data`: the last characters differ. */
  lemma NotBothKinds(n: Node)
    ensures IsDistInfo(n) ==> |n.name| > 0 && n.name[|n.name| - 1] == 'o'
    ensures IsDataDir(n) ==> |n.name| > 0 && n.name[|n.name| - 1] == 'a'
  {
    var s := n.name;
    if IsDistInfo(n) {
      assert s[|s| - 1] == s[|s| - 10..][9];
    }
    if IsDataDir(n) {
      assert s[|s| - 1] == s[|s| - 5..][4];
    }
  }

  /** Once the entry at `i` is rejected, no longer prefix passes the loop. */
  lemma RejectedBlocks(entries: seq<Node>, i: nat, j: nat, reason: BadWheelReason)
    requires RejectedAt(entries, i, reason) && i < j <= |entries|
    ensures !PrefixOk(entries, j)
  {
    LayoutStep(entries, i);
    assert entries[..j][..i + 1] == entries[..i + 1];
    CountsPrefix(entries[..j], i + 1);
  }

  /** The reason of the first error is determined by the entries. */
  lemma FirstLayoutErrorUnique(entries: seq<Node>, ra: BadWheelReason, rb: BadWheelReason)
    requires FirstLayoutError(entries, ra) && FirstLayoutError(entries, rb)
    ensures ra == rb
  {
    if i :| PrefixOk(entries, i) && RejectedAt(entries, i, ra) {
      NotBothKinds(entries[i]);
      if k :| PrefixOk(entries, k) && RejectedAt(entries, k, rb) {
        if i < k {
          RejectedBlocks(entries, i, k, ra);
        } else if k < i {
          RejectedBlocks(entries, k, i, rb);
        }
      } else {
        RejectedBlocks(entries, i, |entries|, ra);
      }
    } else if k :| PrefixOk(entries, k) && RejectedAt(entries, k, rb) {
      RejectedBlocks(entries, k, |entries|, rb);
    }
  }

  /** A `.data` file listed before a `.dist-info` file is what gets reported. */
  lemma FirstLayoutErrorExample()
    ensures FirstLayoutError([File("a.data", ""), File("b.dist-info", "")], DataNotDirectory)
    ensures !FirstLayoutError([File("a.data", ""), File("b.dist-info", "")], DistInfoNotDirectory)
  {
    var entries := [File("a.data", ""), File("b.dist-info", "")];
    assert entries[0].name[1..] == ".data";
    assert PrefixOk(entries, 0) && RejectedAt(entries, 0, DataNotDirectory);
    if FirstLayoutError(entries, DistInfoNotDirectory) {
      FirstLayoutErrorUnique(entries, DataNotDirectory, DistInfoNotDirectory);
    }
  }

  /** Every reported violation does break the layout rules. */
  lemma LayoutErrorRejects(entries: seq<Node>, e: Error)
    requires IsLayoutError(entries, e)
    ensures !WellFormedLayout(entries)
  {
  }

  /** `PackageBuilder._find_dist_info`: the first directory named `*.dist-info`. */
  function FindDistInfo(entries: seq<Node>): (r: Option<Node>)
    ensures r.Some? ==> r.value in entries && r.value.Dir? && IsDistInfo(r.value)
    ensures r.None? <==> forall i :: 0 <= i < |entries| ==> !(entries[i].Dir? && IsDistInfo(entries[i]))
  {
    if |entries| == 0 then None
    else if entries[0].Dir? && IsDistInfo(entries[0]) then Some(entries[0])
    else
      var r := FindDistInfo(entries[1..]);
      assert forall i :: 0 < i < |entries| ==> entries[i] == entries[1..][i - 1];
      r
  }

  lemma {:induction false} FindDistInfoAppend(s: seq<Node>, x: Node)
    ensures FindDistInfo(s + [x]) ==
      if FindDistInfo(s).Some? then FindDistInfo(s)
      else if x.Dir? && IsDistInfo(x) then Some(x) else None
  {
    if |s| > 0 {
      assert (s + [x])[1..] == s[1..] + [x];
      FindDistInfoAppend(s[1..], x);
    } else {
      assert s + [x] == [x];
    }
  }

  lemma {:induction false} CountsPrefix(s: seq<Node>, k: nat)
    requires k <= |s|
    ensures CountDistInfo(s[..k]) <= CountDistInfo(s)
    ensures CountData(s[..k]) <= CountData(s)
    decreases |s|
  {
    if k < |s| {
      assert s[..|s| - 1][..k] == s[..k];
      CountsPrefix(s[..|s| - 1], k);
    } else {
      assert s[..k] == s;
    }
  }

  lemma CountsStep(s: seq<Node>)
    requires |s| > 0
    ensures CountDistInfo(s) == CountDistInfo(s[..|s| - 1]) + (if IsDistInfo(s[|s| - 1]) then 1 else 0)
    ensures CountData(s) == CountData(s[..|s| - 1]) + (if IsDataDir(s[|s| - 1]) then 1 else 0)
  {
  }

  /** What one more entry adds to the counts and to the `.dist-info` lookup. */
  lemma LayoutStep(entries: seq<Node>, i: nat)
    requires i < |entries|
    ensures CountDistInfo(entries[..i + 1]) == CountDistInfo(entries[..i]) + (if IsDistInfo(entries[i]) then 1 else 0)
    ensures CountData(entries[..i + 1]) == CountData(entries[..i]) + (if IsDataDir(entries[i]) then 1 else 0)
    ensures CountDistInfo(entries[..i + 1]) <= CountDistInfo(entries)
    ensures CountData(entries[..i + 1]) <= CountData(entries)
    ensures FindDistInfo(entries[..i + 1]) ==
      if FindDistInfo(entries[..i]).Some? then FindDistInfo(entries[..i])
      else if entries[i].Dir? && IsDistInfo(entries[i]) then Some(entries[i]) else None
  {
    SnocSlice(entries, i);
    CountsStep(entries[..i + 1]);
    CountsPrefix(entries, i + 1);
    FindDistInfoAppend(entries[..i], entries[i]);
  }

  /** The entry at `i` breaks a rule the loop checks for it. */
  lemma RejectAt(entries: seq<Node>, i: nat)
    requires i < |entries|
    ensures IsDistInfo(entries[i]) && entries[i].File? ==> IsLayoutError(entries, BadWheel(DistInfoNotDirectory))
    ensures IsDataDir(entries[i]) && entries[i].File? ==> IsLayoutError(entries, BadWheel(DataNotDirectory))
    ensures IsDistInfo(entries[i]) && CountDistInfo(entries[..i]) > 0 ==> IsLayoutError(entries, BadWheel(MultipleDistInfo))
    ensures IsDataDir(entries[i]) && CountData(entries[..i]) > 0 ==> IsLayoutError(entries, BadWheel(MultipleData))
  {
    LayoutStep(entries, i);
  }

  /** What the loop knows after scanning the first `i` entries: where the `.dist-info` and
      `.data` entries seen so far are, and that every one of them is a directory. */
  predicate Scanned(entries: seq<Node>, i: nat, distInfo: Option<nat>, dataDir: Option<nat>)
    requires i <= |entries|
  {
    && (distInfo.None? <==> CountDistInfo(entries[..i]) == 0)
    && (distInfo.Some? ==> CountDistInfo(entries[..i]) == 1 && distInfo.value < i)
    && FindDistInfo(entries[..i]) == (if distInfo.Some? then Some(entries[distInfo.value]) else None)
    && (dataDir.None? <==> CountData(entries[..i]) == 0)
    && (dataDir.Some? ==> CountData(entries[..i]) == 1)
    && forall j :: 0 <= j < i && (IsDistInfo(entries[j]) || IsDataDir(entries[j])) ==> entries[j].Dir?
  }

  lemma ScanStart(entries: seq<Node>)
    ensures Scanned(entries, 0, None, None)
  {
    assert entries[..0] == [];
  }

  /** An entry that breaks no rule is taken into account. */
  lemma ScanStep(entries: seq<Node>, i: nat, distInfo: Option<nat>, dataDir: Option<nat>)
    requires i < |entries| && Scanned(entries, i, distInfo, dataDir)
    requires IsDistInfo(entries[i]) ==> entries[i].Dir? && distInfo.None?
    requires IsDataDir(entries[i]) ==> entries[i].Dir? && dataDir.None?
    ensures Scanned(entries, i + 1,
      if IsDistInfo(entries[i]) then Some(i) else distInfo,
      if IsDataDir(entries[i]) then Some(i) else dataDir)
  {
    LayoutStep(entries, i);
  }

  /** Once every entry is scanned, the layout is well formed exactly when a `.dist-info`
      directory was seen, and that is the one `_find_dist_info` returns. */
  lemma ScanDone(entries: seq<Node>, distInfo: Option<nat>, dataDir: Option<nat>)
    requires Scanned(entries, |entries|, distInfo, dataDir)
    ensures WellFormedLayout(entries) <==> distInfo.Some?
    ensures distInfo.Some? ==> distInfo.value < |entries| && FindDistInfo(entries) == Some(entries[distInfo.value])
    ensures distInfo.None? ==> IsLayoutError(entries, BadWheel(MissingDistInfo))
    ensures distInfo.None? ==> FirstLayoutError(entries, MissingDistInfo)
  {
    assert entries[..|entries|] == entries;
    assert PrefixOk(entries, |entries|);
  }

  /** The entry at `i` is the first the loop rejects: all before it passed. */
  lemma ScanReject(entries: seq<Node>, i: nat, distInfo: Option<nat>, dataDir: Option<nat>, reason: BadWheelReason)
    requires i < |entries| && Scanned(entries, i, distInfo, dataDir)
    requires RejectedAt(entries, i, reason)
    ensures FirstLayoutError(entries, reason)
  {
    assert PrefixOk(entries, i);
  }

  /** The loop of `check_wheel_contents` over the top-level entries, in listing order: it
      stops at the first entry that breaks a rule; on success it gives the position of the
      one `.dist-info` directory. */
  method CheckLayout(entries: seq<Node>) returns (r: Result<nat, Error>)
    ensures r.Ok? <==> WellFormedLayout(entries)
    ensures r.Ok? ==> r.value < |entries| && FindDistInfo(entries) == Some(entries[r.value])
    ensures r.Err? ==> IsLayoutError(entries, r.error)
    ensures r.Err? ==> r.error.BadWheel? && FirstLayoutError(entries, r.error.reason)
  {
    var distInfo: Option<nat> := None;
    var dataDir: Option<nat> := None;
    var i := 0;
    ScanStart(entries);
    while i < |entries|
      invariant 0 <= i <= |entries|
      invariant Scanned(entries, i, distInfo, dataDir)
    {
      var x := entries[i];
      RejectAt(entries, i);
      ghost var seenDistInfo, seenData := distInfo, dataDir;
      if IsDistInfo(x) {
        if x.File? {
          r := Err(BadWheel(DistInfoNotDirectory));
          LayoutErrorRejects(entries, r.error);
          ScanReject(entries, i, seenDistInfo, seenData, DistInfoNotDirectory);
          return;
        }
        if distInfo.Some? {
          r := Err(BadWheel(MultipleDistInfo));
          LayoutErrorRejects(entries, r.error);
          ScanReject(entries, i, seenDistInfo, seenData, MultipleDistInfo);
          return;
        }
        distInfo := Some(i);
      }
      if IsDataDir(x) {
        if x.File? {
          r := Err(BadWheel(DataNotDirectory));
          LayoutErrorRejects(entries, r.error);
          ScanReject(entries, i, seenDistInfo, seenData, DataNotDirectory);
          return;
        } else if dataDir.Some? {
          r := Err(BadWheel(MultipleData));
          LayoutErrorRejects(entries, r.error);
          ScanReject(entries, i, seenDistInfo, seenData, MultipleData);
          return;
        }
        dataDir := Some(i);
      }
      ScanStep(entries, i, seenDistInfo, seenData);
      i := i + 1;
    }
    ScanDone(entries, distInfo, dataDir);
    if distInfo.None? {
      r := Err(BadWheel(MissingDistInfo));
      LayoutErrorRejects(entries, r.error);
      return;
    }
    r := Ok(distInfo.value);
  }

  lemma {:induction false} CountDistInfoWitness(s: seq<Node>)
    requires CountDistInfo(s) > 0
    ensures exists i :: 0 <= i < |s| && IsDistInfo(s[i])
  {
    if !IsDistInfo(s[|s| - 1]) {
      CountDistInfoWitness(s[..|s| - 1]);
      var i :| 0 <= i < |s| - 1 && IsDistInfo(s[..|s| - 1][i]);
      assert s[..|s| - 1][i] == s[i];
    }
  }

  /** A well-formed layout has its `.dist-info` directory, so `_find_dist_info` finds it. */
  lemma WellFormedHasDistInfo(entries: seq<Node>)
    requires WellFormedLayout(entries)
    ensures FindDistInfo(entries).Some?
  {
    CountDistInfoWitness(entries);
  }

  /** The first entry called `name`, as a path lookup finds it. */
  function ChildNamed(cs: seq<Node>, name: string): (r: Option<Node>)
    ensures r.Some? ==> r.value in cs && r.value.name == name
    ensures r.None? ==> forall i :: 0 <= i < |cs| ==> cs[i].name != name
  {
    if |cs| == 0 then None
    else if cs[0].name == name then Some(cs[0])
    else
      var r := ChildNamed(cs[1..], name);
      assert forall i :: 0 < i < |cs| ==> cs[i] == cs[1..][i - 1];
      r
  }

  /** `(dir / name).open()` and reading it: fails when there is no such regular file. */
  function OpenFile(dir: Node, name: string): (r: Result<string, Error>)
    ensures r.Ok? <==> dir.Dir? && ChildNamed(dir.children, name).Some? && ChildNamed(dir.children, name).value.File?
    ensures r.Ok? ==> r.value == ChildNamed(dir.children, name).value.content
    ensures r.Err? ==> r.error == CannotOpen(name)
  {
    if dir.File? then Err(CannotOpen(name))
    else
      match ChildNamed(dir.children, name)
      case Some(File(_, content)) => Ok(content)
      case _ => Err(CannotOpen(name))
  }

  /** `_read_metadata(dir / name)`. */
  function ReadFile(dir: Node, name: string): Result<Metadata, Error> {
    match OpenFile(dir, name)
    case Err(e) => Err(e)
    case Ok(text) => ReadMetadata(text)
  }

  /** The WHEEL file declares format 1.0 and a pure-Python root. */
  predicate SupportedWheel(wm: Metadata) {
    && FirstValue(wm, "Wheel-Version") == Ok("1.0")
    && FirstValue(wm, "Root-Is-Purelib").Ok?
    && Lower(FirstValue(wm, "Root-Is-Purelib").value) == "true"
  }

  /** The part of `check_wheel_contents` after the layout loop, given the `.dist-info`
      directory: WHEEL must declare format 1.0 and a pure-Python root, and METADATA must
      give a Name and a Version; the METADATA record is the result. */
  function CheckDistInfo(d: Node): (r: Result<Metadata, Error>)
    ensures r.Ok? <==>
      && ReadFile(d, "WHEEL").Ok? && SupportedWheel(ReadFile(d, "WHEEL").value)
      && ReadFile(d, "METADATA").Ok?
      && "Name" in ReadFile(d, "METADATA").value && "Version" in ReadFile(d, "METADATA").value
    ensures r.Ok? ==> r == ReadFile(d, "METADATA")
    ensures r.Ok? ==> forall k :: k in r.value ==> |r.value[k]| > 0
    ensures ReadFile(d, "WHEEL").Err? ==> r == ReadFile(d, "WHEEL")
    ensures var w := ReadFile(d, "WHEEL");
      w.Ok? && FirstValue(w.value, "Wheel-Version").Err? ==> r == Err(FirstValue(w.value, "Wheel-Version").error)
    ensures var w := ReadFile(d, "WHEEL");
      w.Ok? && FirstValue(w.value, "Wheel-Version").Ok? && FirstValue(w.value, "Wheel-Version").value != "1.0"
      ==> r == Err(BadWheel(UnsupportedWheelVersion))
    ensures var w := ReadFile(d, "WHEEL");
      w.Ok? && FirstValue(w.value, "Wheel-Version") == Ok("1.0") && FirstValue(w.value, "Root-Is-Purelib").Ok?
      && Lower(FirstValue(w.value, "Root-Is-Purelib").value) != "true"
      ==> r == Err(BadWheel(Platlib))
    ensures var w := ReadFile(d, "WHEEL");
      w.Ok? && FirstValue(w.value, "Wheel-Version") == Ok("1.0") && FirstValue(w.value, "Root-Is-Purelib").Err?
      ==> r == Err(FirstValue(w.value, "Root-Is-Purelib").error)
    ensures ReadFile(d, "WHEEL").Ok? && SupportedWheel(ReadFile(d, "WHEEL").value) && ReadFile(d, "METADATA").Err?
      ==> r == ReadFile(d, "METADATA")
    ensures var w := ReadFile(d, "WHEEL"); var m := ReadFile(d, "METADATA");
      w.Ok? && SupportedWheel(w.value) && m.Ok? && "Name" !in m.value
      ==> r == Err(BadWheel(MissingField("Name")))
    ensures var w := ReadFile(d, "WHEEL"); var m := ReadFile(d, "METADATA");
      w.Ok? && SupportedWheel(w.value) && m.Ok? && "Name" in m.value && "Version" !in m.value
      ==> r == Err(BadWheel(MissingField("Version")))
  {
    var wm :- ReadFile(d, "WHEEL");
    var version :- FirstValue(wm, "Wheel-Version");
    if version != "1.0" then Err(BadWheel(UnsupportedWheelVersion))
    else
      var purelib :- FirstValue(wm, "Root-Is-Purelib");
      if Lower(purelib) != "true" then Err(BadWheel(Platlib))
      else
        var metadata :- ReadFile(d, "METADATA");
        if "Name" !in metadata then Err(BadWheel(MissingField("Name")))
        else if "Version" !in metadata then Err(BadWheel(MissingField("Version")))
        else Ok(metadata)
  }

  /** `check_wheel_contents` on the top-level entries of the unpacked wheel. */
  method CheckWheelContents(entries: seq<Node>) returns (r: Result<Metadata, Error>)
    ensures !WellFormedLayout(entries) ==> r.Err? && IsLayoutError(entries, r.error)
    ensures !WellFormedLayout(entries) ==> r.Err? && r.error.BadWheel? && FirstLayoutError(entries, r.error.reason)
    ensures WellFormedLayout(entries) ==>
      FindDistInfo(entries).Some? && r == CheckDistInfo(FindDistInfo(entries).value)
    ensures r.Ok? ==> "Name" in r.value && "Version" in r.value
  {
    var layout := CheckLayout(entries);
    if layout.Err? {
      return Err(layout.error);
    }
    r := CheckDistInfo(entries[layout.value]);
  }
}

=== FILE: wrappers.dfy ===
/** Failure-compatible Option and Result datatypes, usable with `:-`. */
module Wrappers {

  datatype Option<+T> = None | Some(value: T)

  /** Either the value an operation computes or the exception it raises. */
  datatype Result<+T, +E> = Ok(value: T) | Err(error: E) {

    predicate IsFailure() {
      Err?
    }

    function PropagateFailure<U>(): Result<U, E>
      requires Err?
    {
      Err(error)
    }

    function Extract(): T
      requires Ok?
    {
      value
    }
  }
}
